=== FILE: README.md ===
# OPL SQL custom data source, modelled in Dafny

This project models the core of the OPL .NET custom data source sample,
which connects an optimization model to a relational database:

- **Read side** (`SqlCustomDataSource`): for every configured
  (element name, query) pair, the query's result rows are streamed into the
  engine's data handler. A SET of TUPLE is fed as a tuple set. Any other SET
  is fed as a scalar set of its leaf type, read from column 0 of each row.
- **Write side** (`SqlWriter`): after a solve, each configured result tuple
  set is written to a table in three steps:
  - `DROP TABLE [t]`, with a `DbException` from it ignored;
  - `CREATE TABLE t(...)`, one typed column per schema column;
  - one parameterised `INSERT` per tuple, all sharing a single insert text.
- **Command line** (`CommandLineParser`): leading options, then the model
  file, then data files.

Modules:

| file | module | contents |
|---|---|---|
| `wrappers.dfy` | `Wrappers` | `Option`, standing for C# null and for calls that throw |
| `logs.dfy` | `Logs` | `Log`: the calls made, plus the exception that ended them; `Then` sequences two steps |
| `strings.dfy` | `Strings` | `String.Join` and `Split`; decimal rendering of indices and `ParseNat` |
| `opl_types.dfy` | `OplTypes` | element-definition types, schema columns, tuple values |
| `data_handler.dfy` | `DataHandler` | handler calls as events; a recognizer for the nesting the engine expects |
| `sql_custom_data_source.dfy` | `SqlCustomDataSource` | the read pass |
| `sql_writer.dfy` | `SqlWriter` | SQL texts, parameters, and the write pass |
| `command_line_parser.dfy` | `CommandLineParser` | the argument parser |

How the I/O is represented:
- **Data handler.** Each call on it is one `Event` in a trace.
- **Read-side database.** Abstracted by two parameters:
  - `execute`, a function from query text to the rows it returns, or `None` when the query fails;
  - `Converter`, the three `Convert.To…` conversions, each returning `None` when it throws.
- **Write-side database.** Each `ExecuteNonQuery` call is one `Command` in a log. Whether it throws is decided by an oracle `fails`.
- **Exceptions.** An exception keeps the calls already made and records the error. The handler, or the database, has already received those calls.

Behaviour of the code that the model keeps:
- An element that is not a SET is skipped and raises no error (src/SqlCustomDataSource.cs:44-54).
- A field whose type is not INTEGER, FLOAT or STRING adds no item when read (src/SqlCustomDataSource.cs:139-153). When written, it gets the column definition `name ` with no SQL type (src/SqlWriter.cs:150-162) and a null parameter (src/SqlWriter.cs:116-126).
- A failure inside a tuple sends no EndTuple or EndSet, so that tuple and its set stay open (src/SqlCustomDataSource.cs:79-87). The handler keeps the calls already made.

## Model

| member | source | states |
|---|---|---|
| Logs.ThenAssociative | src/SqlWriter.cs:181-187 | grouping of sequential steps does not matter, so a pass over a list splits at any point |
| Strings.SplitJoin | src/SqlWriter.cs:79 | `String.Join(",", xs)` loses nothing: splitting at the separator gives back `xs` when no entry holds a comma |
| Strings.NatToString | src/SqlWriter.cs:100 | the rendering of index `i` in `"@value" + i` is a non-empty run of decimal digits without leading zero |
| Strings.ParseNatToString | src/SqlWriter.cs:100 | the decimal rendering of an index reads back as that index |
| Strings.NatToStringInjective | src/SqlWriter.cs:100 | distinct indices render differently |
| OplTypes.ScalarCount | src/SqlCustomDataSource.cs:80-84 | the number of item calls per tuple is at most the schema size, equal to it when every column is INTEGER, FLOAT or STRING |
| DataHandler.RunAppend | src/SqlCustomDataSource.cs:75-87 | the handler protocol can be checked piecewise: a trace is accepted as its parts one after the other |
| DataHandler.RunTupleBlock | src/SqlCustomDataSource.cs:79-85 | StartTuple and items leave the tuple open; EndTuple after exactly `arity` items closes it as one more member (for a tuple read, `arity` is the number of INTEGER, FLOAT and STRING columns) |
| DataHandler.RunElementBlock | src/SqlCustomDataSource.cs:75-87 | StartElement and StartSet open an empty set; EndSet closes it with the members counted |
| DataHandler.CountsAppend | src/SqlCustomDataSource.cs:75-87 | tuple and element counts add up over concatenated traces |
| SqlCustomDataSource.Lookup | src/SqlCustomDataSource.cs:82-83 | `reader[name]` finds a cell of that name in the row, and fails exactly when no column has that name |
| SqlCustomDataSource.HandleColumnValue | src/SqlCustomDataSource.cs:139-153 | INTEGER, FLOAT and STRING give exactly one `AddIntItem`, `AddNumItem` or `AddStringItem` of the converted value; any other type makes no call; a failing conversion throws |
| SqlCustomDataSource.RowReadableMeans | src/SqlCustomDataSource.cs:80-84 | a row reads without error exactly when every schema column is present by name and converts to its type |
| SqlCustomDataSource.ReadFields | src/SqlCustomDataSource.cs:80-84 | a tuple's calls are all item calls; the read fails exactly when some column is missing or does not convert; on success there is one item per INTEGER, FLOAT or STRING column |
| SqlCustomDataSource.ReadTuple | src/SqlCustomDataSource.cs:79-85 | a tuple starts with StartTuple; a successful one holds one item per INTEGER, FLOAT or STRING column and ends with EndTuple; a failed one ends on StartTuple or an item |
| SqlCustomDataSource.ReadRows | src/SqlCustomDataSource.cs:77-86 | the row loop succeeds exactly when every row is readable |
| SqlCustomDataSource.ReadTupleSet | src/SqlCustomDataSource.cs:62-89 | a tuple-set read opens with StartElement(name), StartSet; it succeeds exactly when every row is readable, and then ends with EndSet |
| SqlCustomDataSource.ReadScalars | src/SqlCustomDataSource.cs:104-107 | the scalar loop makes only item calls, item j being row j's first column converted; it fails exactly when some row has no column or does not convert |
| SqlCustomDataSource.ReadSet | src/SqlCustomDataSource.cs:97-110 | StartElement, StartSet, one item per row from column 0 (none for an unmarshalled type), EndSet; failure exactly when some first column is missing or does not convert |
| SqlCustomDataSource.ReadSetOrTuple | src/SqlCustomDataSource.cs:39-55 | an unknown element fails; a non-SET element makes no call; a SET of TUPLE succeeds exactly when every row is readable, and then forms one complete element of one tuple per row; any other SET makes no tuple call, fails exactly when some row's first column is missing or does not convert, and on success sends item j as row j's first column converted to the leaf type |
| SqlCustomDataSource.CustomReadSingle | src/SqlCustomDataSource.cs:169-176 | a pass over one configured read runs the query before any handler call; a failing query ends the pass with no handler call, otherwise the rows are read into the named element |
| SqlCustomDataSource.CustomRead | src/SqlCustomDataSource.cs:161-178 | a successful read pass means every configured element is defined and every query ran |
| SqlCustomDataSource.FillNamesAndTypes | src/SqlCustomDataSource.cs:119-128 | entry i of the names and types comes from schema column i and component i, for every i; paired up, they are exactly the schema the tuple-set read uses |
| SqlCustomDataSource.TupleProtocol | src/SqlCustomDataSource.cs:79-85 | a successful tuple is one complete member of the set; a failed one stays inside the tuple |
| SqlCustomDataSource.ReadRowsComplete | src/SqlCustomDataSource.cs:77-86 | a successful row loop adds one complete member per row |
| SqlCustomDataSource.ReadRowsAborted | src/SqlCustomDataSource.cs:77-86 | a failed row loop stops inside an open tuple |
| SqlCustomDataSource.TupleSetProtocol | src/SqlCustomDataSource.cs:75-87 | a successful tuple-set read is accepted by the handler protocol, checked with tuple arity `ScalarCount(columns)` (the number of INTEGER, FLOAT and STRING columns, not the schema size), as one complete element with one member per row |
| SqlCustomDataSource.TupleSetAbortsInsideTuple | src/SqlCustomDataSource.cs:79-85 | a failed tuple-set read leaves a tuple open: no EndTuple or EndSet follows the StartTuple already sent |
| SqlCustomDataSource.ScalarSetProtocol | src/SqlCustomDataSource.cs:101-109 | a successful scalar-set read is one complete element with one member per row; a failed one leaves the set open |
| SqlCustomDataSource.TupleCounts | src/SqlCustomDataSource.cs:79-85 | a tuple opens exactly once and closes only when all its fields were read |
| SqlCustomDataSource.RowsCounts | src/SqlCustomDataSource.cs:77-86 | a successful row loop makes one StartTuple and one EndTuple per row; a failed one leaves exactly one tuple unclosed |
| SqlCustomDataSource.TupleSetCounts | src/SqlCustomDataSource.cs:75-87 | a tuple-set read starts only its own element and has as many StartTuple/EndTuple pairs as rows |
| SqlCustomDataSource.ScalarSetCounts | src/SqlCustomDataSource.cs:101-109 | a scalar-set read starts only its own element and never calls StartTuple or EndTuple |
| SqlCustomDataSource.ReadSetOrTupleNames | src/SqlCustomDataSource.cs:44-54 | a SET element starts exactly that element; anything else starts none |
| SqlCustomDataSource.CustomReadElementNames | src/SqlCustomDataSource.cs:169-176 | a successful read pass starts the SET elements of its queries, once each, in query order |
| OplTypes.Scalars | src/SqlCustomDataSource.cs:139-153 | the columns that give an item number `ScalarCount`; each is an INTEGER, FLOAT or STRING column of the schema, and they are all the columns when the schema has no other type |
| OplTypes.ScalarsAppend | src/SqlCustomDataSource.cs:80-84 | choosing the item-giving columns is a filter: for a schema cut in two, they are those of the first part followed by those of the second |
| OplTypes.ScalarPosition | src/SqlCustomDataSource.cs:80-84 | every INTEGER, FLOAT or STRING column i gives item number `ScalarCount(columns[..i])`, the count of such columns before it |
| OplTypes.ScalarPositionsIncrease | src/SqlCustomDataSource.cs:80-84 | such columns get strictly increasing item numbers in schema order, so none gives two items and schema order is kept |
| SqlCustomDataSource.ReadFieldsAreNamedItems | src/SqlCustomDataSource.cs:79-84 | for any schema, a readable row's items are its values under the names of the INTEGER, FLOAT and STRING columns, in schema order, each converted to its column's type; columns of other types are looked up but give no item |
| SqlCustomDataSource.SkippedColumnExample | src/SqlCustomDataSource.cs:139-153 | with schema `t: TUPLE, a: INTEGER`, the tuple's only item is `a`'s value |
| SqlCustomDataSource.TupleItemsInSchemaOrder | src/SqlCustomDataSource.cs:75-87 | for any schema, a successful tuple-set read is StartElement, StartSet, per row StartTuple, the row's values under the INTEGER, FLOAT and STRING column names in schema order, EndTuple, then EndSet |
| SqlCustomDataSource.LookupUnique | src/SqlCustomDataSource.cs:83 | with unique column names, `reader[name]` yields exactly the cell of that name |
| SqlCustomDataSource.ProjectionOrderIrrelevant | src/SqlCustomDataSource.cs:80-83 | reordering a query's projected columns changes neither the handler calls nor the outcome of a tuple-set read |
| SqlCustomDataSource.CustomReadAppend | src/SqlCustomDataSource.cs:169-176 | the read pass handles entries strictly one after the other: reading `q1 + q2` is reading `q1`, then `q2` if that succeeded |
| SqlWriter.DropStatement | src/SqlWriter.cs:59 | the DROP text is `DROP TABLE [`, the table name verbatim, then `]` |
| SqlWriter.DropStatementNamesTable | src/SqlWriter.cs:59 | the table name reads back out of its DROP text |
| SqlWriter.SqlType | src/SqlWriter.cs:153-160 | exactly INTEGER, FLOAT and STRING have an SQL type |
| SqlWriter.SqlTypeRoundTrip | src/SqlWriter.cs:155-160 | INT, FLOAT and VARCHAR(30) are distinct, so the SQL type determines the component type |
| SqlWriter.ColumnDefinition | src/SqlWriter.cs:147-163 | an entry starts with the column name; untyped it is the name; typed it is name, space, SQL type, or name and a lone space for other types |
| SqlWriter.ColumnDefinitionRoundTrip | src/SqlWriter.cs:147-163 | for a column name with no space and an INTEGER, FLOAT or STRING type, the typed column definition reads back as its column name and component type |
| SqlWriter.TableDefinition | src/SqlWriter.cs:141-166 | one entry per schema column in schema order, each of the form above; the loop computes exactly the `Definitions` list the write-pass lemmas reason about |
| SqlWriter.CreateTableRoundTrip | src/SqlWriter.cs:79 | for a non-empty list of definitions none of which holds a comma, the CREATE text is `CREATE TABLE t(`, the definitions comma-joined, `)`, and the list splits back into the definitions in order |
| SqlWriter.PlaceholderRoundTrip | src/SqlWriter.cs:100 | parameter name `@value` i reads back as i |
| SqlWriter.PlaceholdersDistinct | src/SqlWriter.cs:100 | distinct parameters get distinct names |
| SqlWriter.CreateInsertCommand | src/SqlWriter.cs:95-106 | the INSERT text joins the column names and the placeholders `@value0` … `@value{n-1}` |
| SqlWriter.InsertColumnsMatchPlaceholders | src/SqlWriter.cs:97-104 | the INSERT's column list splits back into the column names and its value list into the placeholders; column i pairs with `@value` i |
| SqlWriter.DbValueOf | src/SqlWriter.cs:118-125 | a component is bound as null exactly when its type is not INTEGER, FLOAT or STRING |
| SqlWriter.DbValueRoundTrip | src/SqlWriter.cs:118-125 | a marshalled component reaches the database unchanged |
| SqlWriter.InsertParameters | src/SqlWriter.cs:116-127 | one parameter per schema column; parameter i is named `@value` i and carries component i read with its type's getter, or null; the loop computes exactly the `Bindings` list the write-pass lemmas reason about |
| SqlWriter.BindingsCarryTuple | src/SqlWriter.cs:116-127 | every marshalled component can be read back from the parameter of its index |
| SqlWriter.DropTable | src/SqlWriter.cs:55-69 | the DROP is sent, and a `DbException` from it never ends the write |
| SqlWriter.InsertAll | src/SqlWriter.cs:44-46 | the INSERT loop sends tuple j's command as its j-th command and succeeds exactly when no INSERT throws; on success there is one command per tuple |
| SqlWriter.InsertAllStopsAtFailure | src/SqlWriter.cs:44-46 | a failed INSERT loop ends on the INSERT that threw, every earlier one having completed |
| SqlWriter.WriteTable | src/SqlWriter.cs:31-47 | unknown and non-tuple-set elements fail before any command; otherwise the DROP comes first and the CREATE second |
| SqlWriter.WriteTableSucceeds | src/SqlWriter.cs:31-47 | a table write succeeds exactly when the CREATE and every INSERT do; it then sent DROP, CREATE, and one INSERT per tuple in order, all with the one shared text |
| SqlWriter.CreateFailureStopsWrite | src/SqlWriter.cs:40-41 | a throwing CREATE ends the write after the DROP and the CREATE, before any INSERT |
| SqlWriter.DropFailureIgnored | src/SqlWriter.cs:60-67 | databases that differ only on whether the DROP throws see identical writes |
| SqlWriter.WriteResults | src/SqlWriter.cs:176-189 | a successful write pass means every configured name is a tuple set of the model |
| SqlWriter.WriteResultsAppend | src/SqlWriter.cs:181-187 | entries are written strictly one after the other, the first exception ending the pass |
| SqlWriter.WriteTableCommands | src/SqlWriter.cs:31-47 | a successful table write sends exactly its DROP, its CREATE and one INSERT per tuple in tuple order, as read off the model alone |
| SqlWriter.WriteResultsComplete | src/SqlWriter.cs:176-189 | a successful pass sends, entry after entry, each entry's DROP, CREATE and one INSERT per tuple, and nothing else |
| CommandLineParser.ScanOptions | src/CommandLineParser.cs:57-79 | the option scan stops at a suffix of the arguments that is empty or starts with a non-option, leaving model and data files untouched; a missing option argument means that option came last |
| CommandLineParser.Parse | src/CommandLineParser.cs:54-88 | after parsing, either model and data files are unchanged, or the model file is some non-option argument k and the data files gain every argument after k, in order |
| CommandLineParser.ApplyCreateSample | src/CommandLineParser.cs:61-64 | the sample-database flag is set exactly when it was set or `-create_sample` occurs |
| CommandLineParser.ApplyExport | src/CommandLineParser.cs:65-69 | the last `-export` wins; without one the name is unchanged |
| CommandLineParser.ApplyConfiguration | src/CommandLineParser.cs:70-74 | the last `-configuration` or `-properties` wins; without one the name is unchanged |
| CommandLineParser.ScanRendered | src/CommandLineParser.cs:57-79 | scanning written-out options applies them in order and stops at what follows |
| CommandLineParser.ParseRendered | src/CommandLineParser.cs:54-88 | options, a non-option model file and data files parse back to the options applied, that model file, and those data files appended |
| CommandLineParser.ParseOptionsOnly | src/CommandLineParser.cs:80 | a command line of options only leaves the model file and data files unchanged |
| CommandLineParser.ParseMissingArgument | src/CommandLineParser.cs:65-74 | `-export`, `-configuration` or `-properties` as the last argument runs off the end of the array |
| CommandLineParser.ParseHelp | src/CommandLineParser.cs:59-60 | `-h` before the model file ends in the usage exit, whatever follows |
| CommandLineParser.DataFilesTakenVerbatim | src/CommandLineParser.cs:80-87 | after the model file, option-looking arguments are data files |

## Left out

- Connections: opening them and `DbUtils.CreateConnection` are host glue. The read and write passes start from an open connection.
- Real database I/O: modelled only as the `execute` function (read) and the command log with the `fails` oracle (write). A database whose answer to a command depends on earlier commands is not modelled. Whether each command throws is a fixed function of the command.
- `reader[name]`: the model takes the first column with exactly that name. The driver's case-insensitive fallback when no exact match exists is not modelled.
- `Convert.ToInt32`, `Convert.ToDouble`, `Convert.ToString`: left abstract as the `Converter` functions. Their driver- and float-dependent behaviour is not part of the model.
- Integer width: OPL integers and parameters are unbounded `int`; 32-bit range is not modelled. Floats are `real`.
- The schema used by `ReadTupleSet`: the model takes it from the element definition. The source takes it from `handler.getElement(name)` and the model definition, which agree for a declared tuple set.
- Configuration: `ReadQueries` and `WriteTables` are .NET dictionaries. They are modelled as sequences in enumeration order, and the order itself is not modelled. Loading them from XML is a foreign library and is left out.
- `CustomDataSourceSample.Main`: the sample database, console output, and process exit codes are host code. `PrintUsage`'s text and its call to `Environment.Exit` are modelled only as the `Usage` outcome.
- SqlWriter.DropTable: only a `DbException` from the DROP is modelled, as `fails`. Any other exception would escape `DropTable` and end the write; the model has no such outcome.
- `Console.WriteLine` logging: left out, as it has no effect on the data.
- `CommandLineParser.NewParser`: it carries no contract of its own. The fresh-parser defaults appear through the lemmas that start from an arbitrary parser.

=== FILE: command_line_parser.dfy ===
/** The sample program's command-line parser: leading options, then the
    model file, then data files. Options are scanned from the front; the
    first argument that is not an option ends the scan and becomes the
    model file, and every argument after it is a data file, whatever it
    looks like. */
module CommandLineParser {
  import opened Wrappers

  /** The parser's fields; `None` is the C# null. */
  datatype Parser = Parser(
    externalDataName: Option<string>,
    modelFileName: Option<string>,
    configurationFileName: Option<string>,
    dataFileNames: seq<string>,
    createSampleDatabase: bool)

  /** The constructor: no names, no data files, no sample database. */
  function NewParser(): Parser {
    Parser(None, None, None, [], false)
  }

  /** How `Parse` ends: with the parser filled in, in `PrintUsage`
      (which exits the process), or with the index-out-of-range exception
      raised by an option whose argument is missing. */
  datatype Outcome =
    | Parsed(parser: Parser)
    | Usage
    | MissingArgument(option: string)

  /** The option spellings the scan recognises. */
  predicate IsOption(a: string) {
    a == "-h" || a == "-create_sample" || a == "-export" || a == "-configuration" || a == "-properties"
  }

  /** The options that consume the argument after them. */
  predicate TakesArgument(a: string) {
    a == "-export" || a == "-configuration" || a == "-properties"
  }

  /** Where the option scan ends: at the remaining arguments `rest` (the
      source's `args[i..]`) with the fields set so far, in `PrintUsage`, or
      past the end of the array. */
  datatype Scan =
    | Stopped(rest: seq<string>, parser: Parser)
    | ScanUsage
    | ScanMissing(option: string)

  /** The option loop of `Parse`. */
  function ScanOptions(args: seq<string>, p: Parser): (r: Scan)
    ensures r.Stopped? ==>
      |r.rest| <= |args| && r.rest == args[|args| - |r.rest|..] &&
      (|r.rest| > 0 ==> !IsOption(r.rest[0]))
    ensures r.Stopped? ==>
      r.parser.modelFileName == p.modelFileName && r.parser.dataFileNames == p.dataFileNames
    ensures r.ScanUsage? ==> "-h" in args
    ensures r.ScanMissing? ==>
      |args| > 0 && args[|args| - 1] == r.option && TakesArgument(r.option)
    decreases |args|
  {
    if |args| == 0 then Stopped([], p)
    else if args[0] == "-h" then ScanUsage
    else if args[0] == "-create_sample" then
      ScanOptions(args[1..], p.(createSampleDatabase := true))
    else if args[0] == "-export" then
      if |args| < 2 then ScanMissing(args[0])
      else ScanOptions(args[2..], p.(externalDataName := Some(args[1])))
    else if args[0] == "-configuration" || args[0] == "-properties" then
      if |args| < 2 then ScanMissing(args[0])
      else ScanOptions(args[2..], p.(configurationFileName := Some(args[1])))
    else Stopped(args, p)
  }

  /** `Parse`: scan the options, then take the first remaining argument as
      the model file and append every later one to the data files. With no
      argument left, the model file and data files stay as they were. */
  function Parse(p: Parser, args: seq<string>): (r: Outcome)
    ensures r.Parsed? ==>
      (r.parser.modelFileName == p.modelFileName && r.parser.dataFileNames == p.dataFileNames) ||
      (exists k :: 0 <= k < |args| && !IsOption(args[k]) &&
        r.parser.modelFileName == Some(args[k]) && r.parser.dataFileNames == p.dataFileNames + args[k + 1..])
    ensures r.MissingArgument? ==> |args| > 0 && args[|args| - 1] == r.option && TakesArgument(r.option)
  {
    match ScanOptions(args, p)
    case ScanUsage => Usage
    case ScanMissing(o) => MissingArgument(o)
    case Stopped(rest, q) =>
      if |rest| == 0 then Parsed(q)
      else
        var k := |args| - |rest|;
        assert args[k] == rest[0] && args[k + 1..] == rest[1..];
        Parsed(q.(modelFileName := Some(rest[0]), dataFileNames := q.dataFileNames + rest[1..]))
  }

  /* ---------------------------------------------------------------------- */
  /* The options as data: rendering a list of options and parsing it back
     applies them one after the other. */

  datatype Opt =
    | Help
    | CreateSample
    | Export(file: string)
    | Configuration(file: string)
    | Properties(file: string)

  /** How an option is written on the command line. */
  function RenderOpt(o: Opt): (r: seq<string>)
    ensures |r| >= 1 && IsOption(r[0])
  {
    match o
    case Help => ["-h"]
    case CreateSample => ["-create_sample"]
    case Export(f) => ["-export", f]
    case Configuration(f) => ["-configuration", f]
    case Properties(f) => ["-properties", f]
  }

  function Render(opts: seq<Opt>): seq<string> {
    if |opts| == 0 then [] else RenderOpt(opts[0]) + Render(opts[1..])
  }

  /** The effect of one option on the parser. */
  function ApplyOpt(o: Opt, p: Parser): Parser {
    match o
    case Help => p
    case CreateSample => p.(createSampleDatabase := true)
    case Export(f) => p.(externalDataName := Some(f))
    case Configuration(f) => p.(configurationFileName := Some(f))
    case Properties(f) => p.(configurationFileName := Some(f))
  }

  predicate SetsConfiguration(o: Opt) {
    o.Configuration? || o.Properties?
  }

  /** Option i is the last `-export` of the list. */
  predicate LastExport(opts: seq<Opt>, i: int) {
    0 <= i < |opts| && opts[i].Export? && forall j :: i < j < |opts| ==> !opts[j].Export?
  }

  /** Option i is the last `-configuration` or `-properties` of the list. */
  predicate LastConfiguration(opts: seq<Opt>, i: int) {
    0 <= i < |opts| && SetsConfiguration(opts[i]) &&
    forall j :: i < j < |opts| ==> !SetsConfiguration(opts[j])
  }

  /** The options applied in command-line order. */
  function Apply(opts: seq<Opt>, p: Parser): (r: Parser)
    ensures r.modelFileName == p.modelFileName && r.dataFileNames == p.dataFileNames
    decreases |opts|
  {
    if |opts| == 0 then p else Apply(opts[1..], ApplyOpt(opts[0], p))
  }

  /** The flag ends up set exactly when it was set or some option is
      `-create_sample`. */
  lemma {:induction false} ApplyCreateSample(opts: seq<Opt>, p: Parser)
    ensures Apply(opts, p).createSampleDatabase <==>
      p.createSampleDatabase || exists i :: 0 <= i < |opts| && opts[i] == CreateSample
    decreases |opts|
  {
    if |opts| > 0 {
      ApplyCreateSample(opts[1..], ApplyOpt(opts[0], p));
      assert forall i :: 1 <= i < |opts| ==> opts[i] == opts[1..][i - 1];
      if exists i :: 0 <= i < |opts| && opts[i] == CreateSample {
        var i :| 0 <= i < |opts| && opts[i] == CreateSample;
        if i > 0 {
          assert opts[1..][i - 1] == CreateSample;
        }
      }
    }
  }

  /** The last `-export` wins; without one the name is left as it was. */
  lemma {:induction false} ApplyExport(opts: seq<Opt>, p: Parser)
    ensures (forall i :: 0 <= i < |opts| ==> !opts[i].Export?) ==>
      Apply(opts, p).externalDataName == p.externalDataName
    ensures forall i :: LastExport(opts, i) ==> Apply(opts, p).externalDataName == Some(opts[i].file)
    decreases |opts|
  {
    if |opts| > 0 {
      var rest := opts[1..];
      var q := ApplyOpt(opts[0], p);
      ApplyExport(rest, q);
      assert forall i :: 1 <= i < |opts| ==> opts[i] == rest[i - 1];
      forall i | LastExport(opts, i)
        ensures Apply(opts, p).externalDataName == Some(opts[i].file)
      {
        if i > 0 {
          assert LastExport(rest, i - 1);
        } else {
          assert forall k :: 0 <= k < |rest| ==> !rest[k].Export?;
        }
      }
    }
  }

  /** The last `-configuration` or `-properties` wins; without one the name
      is left as it was. */
  lemma {:induction false} ApplyConfiguration(opts: seq<Opt>, p: Parser)
    ensures (forall i :: 0 <= i < |opts| ==> !SetsConfiguration(opts[i])) ==>
      Apply(opts, p).configurationFileName == p.configurationFileName
    ensures forall i :: LastConfiguration(opts, i) ==>
      Apply(opts, p).configurationFileName == Some(opts[i].file)
    decreases |opts|
  {
    if |opts| > 0 {
      var rest := opts[1..];
      var q := ApplyOpt(opts[0], p);
      ApplyConfiguration(rest, q);
      assert forall i :: 1 <= i < |opts| ==> opts[i] == rest[i - 1];
      forall i | LastConfiguration(opts, i)
        ensures Apply(opts, p).configurationFileName == Some(opts[i].file)
      {
        if i > 0 {
          assert LastConfiguration(rest, i - 1);
        } else {
          assert forall k :: 0 <= k < |rest| ==> !SetsConfiguration(rest[k]);
        }
      }
    }
  }

  predicate NoHelp(opts: seq<Opt>) {
    forall i :: 0 <= i < |opts| ==> opts[i] != Help
  }

  /** One rendered option other than `-h` is consumed and applied. */
  lemma ScanOneOption(o: Opt, later: seq<string>, p: Parser)
    requires o != Help
    ensures ScanOptions(RenderOpt(o) + later, p) == ScanOptions(later, ApplyOpt(o, p))
  {
    var args := RenderOpt(o) + later;
    assert args[|RenderOpt(o)|..] == later;
  }

  /** The first rendered option comes first. */
  lemma RenderFirst(opts: seq<Opt>, tail: seq<string>)
    requires |opts| > 0
    ensures Render(opts) + tail == RenderOpt(opts[0]) + (Render(opts[1..]) + tail)
  {
  }

  /** Scanning rendered options (without `-h`) applies them and stops at
      whatever follows. */
  lemma {:induction false} ScanRendered(opts: seq<Opt>, tail: seq<string>, p: Parser)
    requires NoHelp(opts)
    ensures ScanOptions(Render(opts) + tail, p) == ScanOptions(tail, Apply(opts, p))
    decreases |opts|
  {
    if |opts| > 0 {
      var o, rest := opts[0], opts[1..];
      var later := Render(rest) + tail;
      assert o != Help;
      assert NoHelp(rest) by {
        assert forall i :: 1 <= i < |opts| ==> rest[i - 1] == opts[i];
      }
      calc {
        ScanOptions(Render(opts) + tail, p);
        { RenderFirst(opts, tail); }
        ScanOptions(RenderOpt(o) + later, p);
        { ScanOneOption(o, later, p); }
        ScanOptions(later, ApplyOpt(o, p));
        { ScanRendered(rest, tail, ApplyOpt(o, p)); }
        ScanOptions(tail, Apply(rest, ApplyOpt(o, p)));
      }
    } else {
      assert Render(opts) + tail == tail;
    }
  }

  /** Options, a model file that is not an option, and data files parse
      back to the options applied, that model file and those data files. */
  lemma ParseRendered(p: Parser, opts: seq<Opt>, model: string, data: seq<string>)
    requires NoHelp(opts) && !IsOption(model)
    ensures Parse(p, Render(opts) + [model] + data) ==
            Parsed(Apply(opts, p).(modelFileName := Some(model), dataFileNames := p.dataFileNames + data))
  {
    assert Render(opts) + [model] + data == Render(opts) + ([model] + data);
    ScanRendered(opts, [model] + data, p);
    assert ([model] + data)[1..] == data;
  }

  /** A command line of options only leaves the model file and the data
      files as they were. */
  lemma ParseOptionsOnly(p: Parser, opts: seq<Opt>)
    requires NoHelp(opts)
    ensures Parse(p, Render(opts)) == Parsed(Apply(opts, p))
  {
    ScanRendered(opts, [], p);
    assert Render(opts) + [] == Render(opts);
  }

  /** An option that needs an argument but comes last runs off the end
      of the array. */
  lemma ParseMissingArgument(p: Parser, opts: seq<Opt>, option: string)
    requires NoHelp(opts) && TakesArgument(option)
    ensures Parse(p, Render(opts) + [option]) == MissingArgument(option)
  {
    ScanRendered(opts, [option], p);
  }

  /** `-h` before the model file ends the program in the usage text,
      whatever follows. */
  lemma ParseHelp(p: Parser, opts: seq<Opt>, rest: seq<string>)
    requires NoHelp(opts)
    ensures Parse(p, Render(opts) + ["-h"] + rest) == Usage
  {
    assert Render(opts) + ["-h"] + rest == Render(opts) + (["-h"] + rest);
    ScanRendered(opts, ["-h"] + rest, p);
  }

  /** After the model file nothing is an option: arguments that look like
      options are data files. */
  lemma DataFilesTakenVerbatim(p: Parser, model: string, data: seq<string>)
    requires !IsOption(model)
    ensures Parse(p, [model] + data) ==
            Parsed(p.(modelFileName := Some(model), dataFileNames := p.dataFileNames + data))
  {
    var args := [model] + data;
    assert args[0] == model && args[1..] == data;
    assert ScanOptions(args, p) == Stopped(args, p);
  }
}

=== FILE: data_handler.dfy ===
/** The engine's data handler, seen from the data source as the sequence of
    calls it receives, and a recognizer for the nesting those calls must
    follow: StartElement, StartSet, then members (scalar items, or
    StartTuple, items, EndTuple), then EndSet. */
module DataHandler {
  import opened Wrappers

  /** One call on the data handler. */
  datatype Event =
    | StartElement(name: string)
    | StartSet
    | StartTuple
    | AddIntItem(i: int)
    | AddNumItem(x: real)
    | AddStringItem(s: string)
    | EndTuple
    | EndSet

  predicate IsItem(e: Event) {
    e.AddIntItem? || e.AddNumItem? || e.AddStringItem?
  }

  /** Where the recognizer stands: inside an element, inside its set having
      seen `members` members, inside a tuple having seen `items` items, or
      after the set closed. */
  datatype Phase =
    | Idle
    | InElement
    | InSet(members: nat)
    | InTuple(members: nat, items: nat)
    | Closed(members: nat)

  /** One transition; `arity` is the number of items every tuple must hold.
      `None` rejects the call. */
  function Step(arity: nat, p: Phase, e: Event): Option<Phase> {
    match e
    case StartElement(_) => if p.Idle? || p.Closed? then Some(InElement) else None
    case StartSet => if p.InElement? then Some(InSet(0)) else None
    case StartTuple => if p.InSet? then Some(InTuple(p.members, 0)) else None
    case EndTuple =>
      if p.InTuple? && p.items == arity then Some(InSet(p.members + 1)) else None
    case EndSet => if p.InSet? then Some(Closed(p.members)) else None
    case _ =>
      if p.InSet? then Some(InSet(p.members + 1))
      else if p.InTuple? then Some(InTuple(p.members, p.items + 1))
      else None
  }

  /** Feeds `events` to the recognizer from phase `p`. */
  function Run(arity: nat, p: Phase, events: seq<Event>): Option<Phase>
    decreases |events|
  {
    if |events| == 0 then Some(p)
    else
      match Step(arity, p, events[0])
      case None => None
      case Some(q) => Run(arity, q, events[1..])
  }

  /** Running a concatenation runs the parts one after the other. */
  lemma {:induction false} RunAppend(arity: nat, p: Phase, a: seq<Event>, b: seq<Event>)
    requires Run(arity, p, a).Some?
    ensures Run(arity, p, a + b) == Run(arity, Run(arity, p, a).value, b)
    decreases |a|
  {
    if |a| > 0 {
      assert (a + b)[0] == a[0];
      assert (a + b)[1..] == a[1..] + b;
      RunAppend(arity, Step(arity, p, a[0]).value, a[1..], b);
    } else {
      assert a + b == b;
    }
  }

  /** StartElement then StartSet opens an element's set. */
  lemma RunOpenSet(arity: nat, name: string)
    ensures Run(arity, Idle, [StartElement(name), StartSet]) == Some(InSet(0))
  {
    var head := [StartElement(name), StartSet];
    assert head[1..] == [StartSet];
    assert Run(arity, InElement, [StartSet]) == Run(arity, InSet(0), []);
  }

  /** Items inside a tuple only advance the item count. */
  lemma {:induction false} RunItemsInTuple(arity: nat, k: nat, m: nat, items: seq<Event>)
    requires forall j :: 0 <= j < |items| ==> IsItem(items[j])
    ensures Run(arity, InTuple(k, m), items) == Some(InTuple(k, m + |items|))
    decreases |items|
  {
    if |items| > 0 {
      RunItemsInTuple(arity, k, m + 1, items[1..]);
    }
  }

  /** Items directly inside a set each count as one member. */
  lemma {:induction false} RunItemsInSet(arity: nat, k: nat, items: seq<Event>)
    requires forall j :: 0 <= j < |items| ==> IsItem(items[j])
    ensures Run(arity, InSet(k), items) == Some(InSet(k + |items|))
    decreases |items|
  {
    if |items| > 0 {
      RunItemsInSet(arity, k + 1, items[1..]);
    }
  }

  /** A tuple block: StartTuple and items leave the tuple open; EndTuple
      closes it, as one more member, exactly when it holds `arity` items. */
  lemma RunTupleBlock(arity: nat, k: nat, items: seq<Event>)
    requires forall j :: 0 <= j < |items| ==> IsItem(items[j])
    ensures Run(arity, InSet(k), [StartTuple] + items) == Some(InTuple(k, |items|))
    ensures |items| == arity ==>
      Run(arity, InSet(k), [StartTuple] + items + [EndTuple]) == Some(InSet(k + 1))
  {
    assert Run(arity, InSet(k), [StartTuple]) == Run(arity, InTuple(k, 0), []);
    RunAppend(arity, InSet(k), [StartTuple], items);
    RunItemsInTuple(arity, k, 0, items);
    if |items| == arity {
      assert Run(arity, InTuple(k, |items|), [EndTuple]) == Run(arity, InSet(k + 1), []);
      RunAppend(arity, InSet(k), [StartTuple] + items, [EndTuple]);
    }
  }

  /** An element block: StartElement, StartSet, then a body run from the
      empty set; EndSet closes the set with the members counted so far. */
  lemma RunElementBlock(arity: nat, name: string, body: seq<Event>)
    requires Run(arity, InSet(0), body).Some?
    ensures Run(arity, Idle, [StartElement(name), StartSet] + body) == Run(arity, InSet(0), body)
    ensures Run(arity, InSet(0), body).value.InSet? ==>
      Run(arity, Idle, [StartElement(name), StartSet] + body + [EndSet]) ==
      Some(Closed(Run(arity, InSet(0), body).value.members))
  {
    var head := [StartElement(name), StartSet];
    RunOpenSet(arity, name);
    RunAppend(arity, Idle, head, body);
    var q := Run(arity, InSet(0), body).value;
    if q.InSet? {
      assert Run(arity, q, [EndSet]) == Run(arity, Closed(q.members), []);
      RunAppend(arity, Idle, head + body, [EndSet]);
    }
  }

  /** A body that leaves the set open with `n` members, closed by EndSet,
      makes a complete element of `n` members. */
  lemma RunElementComplete(arity: nat, name: string, body: seq<Event>, n: nat)
    requires Run(arity, InSet(0), body) == Some(InSet(n))
    ensures Run(arity, Idle, [StartElement(name), StartSet] + body + [EndSet]) == Some(Closed(n))
  {
    RunElementBlock(arity, name, body);
  }

  /** The number of `StartTuple` calls in a trace. */
  function CountStartTuple(events: seq<Event>): nat {
    if |events| == 0 then 0
    else (if events[0].StartTuple? then 1 else 0) + CountStartTuple(events[1..])
  }

  /** The number of `EndTuple` calls in a trace. */
  function CountEndTuple(events: seq<Event>): nat {
    if |events| == 0 then 0
    else (if events[0].EndTuple? then 1 else 0) + CountEndTuple(events[1..])
  }

  /** The names passed to `StartElement`, in call order. */
  function ElementNames(events: seq<Event>): seq<string> {
    if |events| == 0 then []
    else (if events[0].StartElement? then [events[0].name] else []) + ElementNames(events[1..])
  }

  lemma {:induction false} CountsAppend(a: seq<Event>, b: seq<Event>)
    ensures CountStartTuple(a + b) == CountStartTuple(a) + CountStartTuple(b)
    ensures CountEndTuple(a + b) == CountEndTuple(a) + CountEndTuple(b)
    ensures ElementNames(a + b) == ElementNames(a) + ElementNames(b)
    decreases |a|
  {
    if |a| > 0 {
      assert (a + b)[0] == a[0];
      assert (a + b)[1..] == a[1..] + b;
      CountsAppend(a[1..], b);
    } else {
      assert a + b == b;
    }
  }

  /** The opening of an element starts that element and no tuple. */
  lemma HeadCounts(name: string)
    ensures CountStartTuple([StartElement(name), StartSet]) == 0
    ensures CountEndTuple([StartElement(name), StartSet]) == 0
    ensures ElementNames([StartElement(name), StartSet]) == [name]
  {
    var head := [StartElement(name), StartSet];
    var tail: seq<Event> := [StartSet];
    assert head[1..] == tail;
    assert tail[1..] == [];
    assert CountStartTuple(tail) == 0 && CountEndTuple(tail) == 0 && ElementNames(tail) == [];
  }

  /** A run of items holds no structural call. */
  lemma {:induction false} CountsOfItems(items: seq<Event>)
    requires forall j :: 0 <= j < |items| ==> IsItem(items[j])
    ensures CountStartTuple(items) == 0 && CountEndTuple(items) == 0
    ensures ElementNames(items) == []
    decreases |items|
  {
    if |items| > 0 {
      CountsOfItems(items[1..]);
    }
  }
}

=== FILE: logs.dfy ===
/** The result of a sequence of side-effecting calls that stops at the first
    exception: the calls made (including the one that threw), and the error,
    if any. */
module Logs {
  import opened Wrappers

  datatype Log<+E, +X> = Log(entries: seq<E>, failure: Option<X>)

  /** Runs `rest` after `t` unless `t` failed: the entries of both, and the
      outcome of the later one. */
  function Then<E, X>(t: Log<E, X>, rest: Log<E, X>): (r: Log<E, X>)
    ensures t.failure.Some? ==> r == t
    ensures t.failure.None? ==> r.entries == t.entries + rest.entries && r.failure == rest.failure
  {
    if t.failure.Some? then t else Log(t.entries + rest.entries, rest.failure)
  }

  lemma ThenAssociative<E, X>(a: Log<E, X>, b: Log<E, X>, c: Log<E, X>)
    ensures Then(Then(a, b), c) == Then(a, Then(b, c))
  {
  }
}

=== FILE: opl_types.dfy ===
/** The slice of the optimization engine's type metadata that the SQL bridge
    looks at: element-definition type tags, tuple-schema columns, and the
    values held by a solved tuple. */
module OplTypes {

  /** `OplElementDefinitionType.Type` as far as the bridge distinguishes it;
      `Other` stands for every remaining tag (maps, arrays, ...). */
  datatype OplType = Integer | Float | String | Tuple | Set | Other

  /** The three field types the bridge knows how to marshal. */
  predicate IsScalarType(t: OplType) {
    t == Integer || t == Float || t == String
  }

  /** Component i of a tuple schema: column name i paired with the type of
      component i of the schema's definition. */
  datatype Column = Column(name: string, kind: OplType)

  /** A tuple component as the engine stores it. */
  datatype Value = IntValue(i: int) | NumValue(x: real) | StrValue(s: string) | OtherValue

  /** `v` is what the typed getter for `t` returns a value of; components of
      other types may hold anything. */
  predicate Matches(t: OplType, v: Value) {
    match t
    case Integer => v.IntValue?
    case Float => v.NumValue?
    case String => v.StrValue?
    case _ => true
  }

  /** A tuple of a tuple set has one component per schema column, each of
      the column's type: an invariant the engine maintains. */
  predicate Conforms(columns: seq<Column>, tuple: seq<Value>) {
    |tuple| == |columns| &&
    forall i :: 0 <= i < |columns| ==> Matches(columns[i].kind, tuple[i])
  }

  /** The number of columns whose type the bridge marshals. */
  function ScalarCount(columns: seq<Column>): (n: nat)
    ensures n <= |columns|
    ensures n == |columns| <== (forall i :: 0 <= i < |columns| ==> IsScalarType(columns[i].kind))
    ensures n == 0 <== (forall i :: 0 <= i < |columns| ==> !IsScalarType(columns[i].kind))
  {
    if |columns| == 0 then 0
    else (if IsScalarType(columns[0].kind) then 1 else 0) + ScalarCount(columns[1..])
  }
  /** The columns that carry a value (INTEGER, FLOAT or STRING), in schema
      order: the columns a tuple's items come from. */
  function Scalars(columns: seq<Column>): (r: seq<Column>)
    ensures |r| == ScalarCount(columns)
    ensures forall k :: 0 <= k < |r| ==> IsScalarType(r[k].kind) && r[k] in columns
    ensures (forall i :: 0 <= i < |columns| ==> IsScalarType(columns[i].kind)) ==> r == columns
    decreases |columns|
  {
    if |columns| == 0 then []
    else
      var tail := columns[1..];
      var rest := Scalars(tail);
      assert forall i :: 1 <= i < |columns| ==> tail[i - 1] == columns[i];
      assert forall c :: c in tail ==> c in columns;
      if IsScalarType(columns[0].kind) then
        assert columns == [columns[0]] + tail;
        [columns[0]] + rest
      else rest
  }

  /** One step of `Scalars`: the first column, if it carries a value, then
      the value columns of the rest. */
  lemma ScalarsCons(columns: seq<Column>)
    requires |columns| > 0
    ensures Scalars(columns) ==
            (if IsScalarType(columns[0].kind) then [columns[0]] else []) + Scalars(columns[1..])
  {
  }

  /** Counting is additive over concatenation. */
  lemma {:induction false} ScalarCountAppend(a: seq<Column>, b: seq<Column>)
    ensures ScalarCount(a + b) == ScalarCount(a) + ScalarCount(b)
    decreases |a|
  {
    if |a| > 0 {
      assert (a + b)[0] == a[0] && (a + b)[1..] == a[1..] + b;
      ScalarCountAppend(a[1..], b);
    } else {
      assert a + b == b;
    }
  }

  /** `Scalars` is a filter: it distributes over concatenation. */
  lemma {:induction false} ScalarsAppend(a: seq<Column>, b: seq<Column>)
    ensures Scalars(a + b) == Scalars(a) + Scalars(b)
    decreases |a|
  {
    if |a| > 0 {
      assert (a + b)[0] == a[0] && (a + b)[1..] == a[1..] + b;
      ScalarsAppend(a[1..], b);
      ScalarsCons(a);
      ScalarsCons(a + b);
    } else {
      assert a + b == b;
    }
  }

  /** A value column i sits in `Scalars` at the number of value columns
      before it: every value column appears, in schema order. */
  lemma ScalarPosition(columns: seq<Column>, i: nat)
    requires i < |columns| && IsScalarType(columns[i].kind)
    ensures ScalarCount(columns[..i]) < |Scalars(columns)|
    ensures Scalars(columns)[ScalarCount(columns[..i])] == columns[i]
  {
    var before, after := columns[..i], columns[i + 1..];
    assert columns == before + ([columns[i]] + after);
    ScalarsAppend(before, [columns[i]] + after);
    ScalarsCons([columns[i]] + after);
    assert ([columns[i]] + after)[1..] == after;
  }

  /** Distinct value columns get distinct, increasing positions: none appears
      twice and their order is the schema's. */
  lemma ScalarPositionsIncrease(columns: seq<Column>, i: nat, j: nat)
    requires i < j <= |columns| && IsScalarType(columns[i].kind)
    ensures ScalarCount(columns[..i]) < ScalarCount(columns[..j])
  {
    assert columns[..j] == columns[..i] + columns[i..j];
    ScalarCountAppend(columns[..i], columns[i..j]);
  }

}

=== FILE: sql_custom_data_source.dfy ===
/** The read side: a custom data source that, for every configured
    (element name, query) pair, runs the query and streams its rows into the
    engine's data handler as a scalar set or a tuple set.

    The handler is modelled by the list of calls made on it. A read that
    throws keeps the calls already made and records the error, since the
    handler has received them by then. */
module SqlCustomDataSource {
  import opened Wrappers
  import opened OplTypes
  import opened DataHandler
  import opened Logs

  /** A value as the database driver returns it. */
  datatype Native = NativeInt(i: int) | NativeReal(x: real) | NativeText(s: string) | NativeNull

  /** A column of a result row: its projected name and its value. */
  datatype Cell = Cell(name: string, value: Native)

  /** A result row, its columns in projection order. */
  type Row = seq<Cell>

  /** `Convert.ToInt32`, `Convert.ToDouble` and `Convert.ToString`, left
      abstract; `None` where the conversion throws. */
  datatype Converter = Converter(
    toInt: Native -> Option<int>,
    toNum: Native -> Option<real>,
    toText: Native -> Option<string>)

  datatype ReadError =
    | UnknownElement(element: string)
    | MissingColumn(column: string)
    | NoColumn
    | ConversionFailed(kind: OplType)
    | QueryFailed(query: string)

  /** The calls made on the handler, and the error that ended the read, if any. */
  type Trace = Log<Event, ReadError>

  /** What the model definition says of one element: its type, its leaf
      type, and for a tuple set the columns of its tuple schema. */
  datatype ElementDef = ElementDef(kind: OplType, leaf: OplType, columns: seq<Column>)

  /** One configured read: the element to fill and the query to fill it from. */
  datatype ReadQuery = ReadQuery(element: string, query: string)

  /** `reader[name]`: the value of the first column called `name`. */
  function Lookup(row: Row, name: string): (r: Option<Native>)
    ensures r.Some? ==> Cell(name, r.value) in row
    ensures r.None? <==> forall k :: 0 <= k < |row| ==> row[k].name != name
  {
    if |row| == 0 then None
    else if row[0].name == name then Some(row[0].value)
    else Lookup(row[1..], name)
  }

  /** The conversion the handler call for `kind` needs succeeds on `v`;
      other kinds need none. */
  predicate Convertible(cv: Converter, kind: OplType, v: Native) {
    match kind
    case Integer => cv.toInt(v).Some?
    case Float => cv.toNum(v).Some?
    case String => cv.toText(v).Some?
    case _ => true
  }

  /** The item call that adds `v` as a value of `kind`. */
  function ItemOf(cv: Converter, kind: OplType, v: Native): (e: Event)
    requires IsScalarType(kind) && Convertible(cv, kind, v)
    ensures IsItem(e)
  {
    match kind
    case Integer => AddIntItem(cv.toInt(v).value)
    case Float => AddNumItem(cv.toNum(v).value)
    case String => AddStringItem(cv.toText(v).value)
  }

  /** Adds `v` to the open set or tuple with the call matching `kind`;
      a kind other than INTEGER, FLOAT and STRING makes no call at all. */
  function HandleColumnValue(cv: Converter, kind: OplType, v: Native): (r: Trace)
    ensures r.failure.None? <==> Convertible(cv, kind, v)
    ensures r.failure.Some? ==> r.entries == []
    ensures kind == Integer && r.failure.None? ==> r.entries == [AddIntItem(cv.toInt(v).value)]
    ensures kind == Float && r.failure.None? ==> r.entries == [AddNumItem(cv.toNum(v).value)]
    ensures kind == String && r.failure.None? ==> r.entries == [AddStringItem(cv.toText(v).value)]
    ensures !IsScalarType(kind) ==> r == Log([], None)
  {
    if !Convertible(cv, kind, v) then Log([], Some(ConversionFailed(kind)))
    else if IsScalarType(kind) then Log([ItemOf(cv, kind, v)], None)
    else Log([], None)
  }

  /** The column named like `c` is present and converts to `c`'s type. */
  predicate FieldReadable(cv: Converter, c: Column, row: Row) {
    Lookup(row, c.name).Some? && Convertible(cv, c.kind, Lookup(row, c.name).value)
  }

  /** Every schema column can be read from `row`, checked column by column. */
  predicate RowReadable(cv: Converter, columns: seq<Column>, row: Row)
    decreases |columns|
  {
    |columns| == 0 || (FieldReadable(cv, columns[0], row) && RowReadable(cv, columns[1..], row))
  }

  /** Every row of a tuple-set query can be read against the schema. */
  predicate AllRowsReadable(cv: Converter, columns: seq<Column>, rows: seq<Row>)
    decreases |rows|
  {
    |rows| == 0 || (RowReadable(cv, columns, rows[0]) && AllRowsReadable(cv, columns, rows[1..]))
  }

  /** A row is readable exactly when each schema column is. */
  lemma {:induction false} RowReadableMeans(cv: Converter, columns: seq<Column>, row: Row)
    ensures RowReadable(cv, columns, row) <==>
            forall k :: 0 <= k < |columns| ==> FieldReadable(cv, columns[k], row)
    decreases |columns|
  {
    if |columns| > 0 {
      RowReadableMeans(cv, columns[1..], row);
      assert forall k :: 1 <= k < |columns| ==> columns[1..][k - 1] == columns[k];
    }
  }

  /** The rows are readable exactly when each of them is. */
  lemma {:induction false} AllRowsReadableMeans(cv: Converter, columns: seq<Column>, rows: seq<Row>)
    ensures AllRowsReadable(cv, columns, rows) <==>
            forall j :: 0 <= j < |rows| ==> RowReadable(cv, columns, rows[j])
    decreases |rows|
  {
    if |rows| > 0 {
      AllRowsReadableMeans(cv, columns, rows[1..]);
      assert forall j :: 1 <= j < |rows| ==> rows[1..][j - 1] == rows[j];
    }
  }

  predicate AllScalar(columns: seq<Column>) {
    forall k :: 0 <= k < |columns| ==> IsScalarType(columns[k].kind)
  }

  /** The items of one tuple: for each schema column in order, the row's
      value under that column's name. */
  function ReadFields(cv: Converter, columns: seq<Column>, row: Row): (r: Trace)
    ensures r.failure.None? <==> RowReadable(cv, columns, row)
    ensures forall j :: 0 <= j < |r.entries| ==> IsItem(r.entries[j])
    ensures r.failure.None? ==> |r.entries| == ScalarCount(columns)
    decreases |columns|
  {
    if |columns| == 0 then Log([], None)
    else
      match Lookup(row, columns[0].name)
      case None => Log([], Some(MissingColumn(columns[0].name)))
      case Some(v) =>
        var h := HandleColumnValue(cv, columns[0].kind, v);
        if h.failure.Some? then h
        else
          var rest := ReadFields(cv, columns[1..], row);
          assert forall k :: 1 <= k < |columns| ==> columns[1..][k - 1] == columns[k];
          Log(h.entries + rest.entries, rest.failure)
  }

  /** One row of a tuple set: StartTuple, the items, EndTuple. A failing
      column lookup or conversion leaves the tuple open. */
  function ReadTuple(cv: Converter, columns: seq<Column>, row: Row): (r: Trace)
    ensures r.failure.None? <==> RowReadable(cv, columns, row)
    ensures |r.entries| >= 1 && r.entries[0] == StartTuple
    ensures r.failure.None? ==>
      |r.entries| == ScalarCount(columns) + 2 && r.entries[|r.entries| - 1] == EndTuple
    ensures r.failure.Some? ==>
      r.entries[|r.entries| - 1].StartTuple? || IsItem(r.entries[|r.entries| - 1])
  {
    var f := ReadFields(cv, columns, row);
    if f.failure.Some? then Log([StartTuple] + f.entries, f.failure)
    else Log([StartTuple] + f.entries + [EndTuple], None)
  }

  /** All rows of a tuple set, one tuple each, stopping at the first
      failure. */
  function ReadRows(cv: Converter, columns: seq<Column>, rows: seq<Row>): (r: Trace)
    ensures r.failure.None? <==> AllRowsReadable(cv, columns, rows)
    decreases |rows|
  {
    if |rows| == 0 then Log([], None)
    else
      var t := ReadTuple(cv, columns, rows[0]);
      if t.failure.Some? then t
      else
        var rest := ReadRows(cv, columns, rows[1..]);
        Log(t.entries + rest.entries, rest.failure)
  }

  /** `ReadTupleSet`: StartElement(name), StartSet, one tuple per row, EndSet. */
  function ReadTupleSet(cv: Converter, columns: seq<Column>, name: string, rows: seq<Row>): (r: Trace)
    ensures r.failure.None? <==> AllRowsReadable(cv, columns, rows)
    ensures |r.entries| >= 2 && r.entries[0] == StartElement(name) && r.entries[1] == StartSet
    ensures r.failure.None? ==> r.entries[|r.entries| - 1] == EndSet
  {
    var head := [StartElement(name), StartSet];
    var body := ReadRows(cv, columns, rows);
    if body.failure.Some? then Log(head + body.entries, body.failure)
    else Log(head + body.entries + [EndSet], None)
  }

  /** The column-0 values of a scalar set, one handler call per row. */
  function ReadScalars(cv: Converter, kind: OplType, rows: seq<Row>): (r: Trace)
    ensures r.failure.None? <==>
      forall j :: 0 <= j < |rows| ==> |rows[j]| > 0 && Convertible(cv, kind, rows[j][0].value)
    ensures forall j :: 0 <= j < |r.entries| ==> IsItem(r.entries[j])
    ensures r.failure.None? ==> |r.entries| == if IsScalarType(kind) then |rows| else 0
    ensures r.failure.None? && IsScalarType(kind) ==>
      forall j :: 0 <= j < |rows| ==>
        |rows[j]| > 0 && Convertible(cv, kind, rows[j][0].value) &&
        r.entries[j] == ItemOf(cv, kind, rows[j][0].value)
    decreases |rows|
  {
    if |rows| == 0 then Log([], None)
    else if |rows[0]| == 0 then Log([], Some(NoColumn))
    else
      var h := HandleColumnValue(cv, kind, rows[0][0].value);
      if h.failure.Some? then h
      else
        var rest := ReadScalars(cv, kind, rows[1..]);
        assert forall j :: 1 <= j < |rows| ==> rows[1..][j - 1] == rows[j];
        Log(h.entries + rest.entries, rest.failure)
  }

  /** `ReadSet`: StartElement(name), StartSet, one item per row taken from
      the row's first column whatever its name, EndSet. */
  function ReadSet(cv: Converter, kind: OplType, name: string, rows: seq<Row>): (r: Trace)
    ensures r.failure.None? <==>
      forall j :: 0 <= j < |rows| ==> |rows[j]| > 0 && Convertible(cv, kind, rows[j][0].value)
    ensures |r.entries| >= 2 && r.entries[0] == StartElement(name) && r.entries[1] == StartSet
    ensures r.failure.None? <==> r.entries[|r.entries| - 1] == EndSet
    ensures r.failure.None? ==> |r.entries| == 3 + if IsScalarType(kind) then |rows| else 0
    ensures r.failure.None? && IsScalarType(kind) ==>
      forall j :: 0 <= j < |rows| ==>
        |rows[j]| > 0 && Convertible(cv, kind, rows[j][0].value) &&
        r.entries[2 + j] == ItemOf(cv, kind, rows[j][0].value)
  {
    var head := [StartElement(name), StartSet];
    var body := ReadScalars(cv, kind, rows);
    if body.failure.Some? then
      var prefix := head + body.entries;
      assert prefix[|prefix| - 1] != EndSet by {
        if |body.entries| > 0 {
          assert prefix[|prefix| - 1] == body.entries[|body.entries| - 1];
        }
      }
      Log(prefix, body.failure)
    else Log(head + body.entries + [EndSet], None)
  }

  /** `ReadSetOrTuple`: a SET whose leaf is TUPLE is read as a tuple set,
      any other SET as a scalar set of its leaf type, and anything that is
      not a SET is skipped without a handler call. */
  function ReadSetOrTuple(defs: map<string, ElementDef>, cv: Converter, name: string, rows: seq<Row>): (r: Trace)
    ensures name !in defs ==> r == Log([], Some(UnknownElement(name)))
    ensures name in defs && defs[name].kind != Set ==> r == Log([], None)
    ensures name in defs && defs[name].kind == Set ==>
      |r.entries| >= 2 && r.entries[0] == StartElement(name) && r.entries[1] == StartSet &&
      (r.failure.None? ==> r.entries[|r.entries| - 1] == EndSet)
    ensures name in defs && defs[name].kind == Set && defs[name].leaf == Tuple ==>
      var columns := defs[name].columns;
      (r.failure.None? <==> AllRowsReadable(cv, columns, rows)) &&
      (r.failure.None? ==>
        CountStartTuple(r.entries) == |rows| == CountEndTuple(r.entries) &&
        Run(ScalarCount(columns), Idle, r.entries) == Some(Closed(|rows|)))
    ensures name in defs && defs[name].kind == Set && defs[name].leaf != Tuple ==>
      var leaf := defs[name].leaf;
      CountStartTuple(r.entries) == 0 && CountEndTuple(r.entries) == 0 &&
      (r.failure.None? <==>
        forall j :: 0 <= j < |rows| ==> |rows[j]| > 0 && Convertible(cv, leaf, rows[j][0].value)) &&
      (r.failure.None? ==> |r.entries| == 3 + if IsScalarType(leaf) then |rows| else 0) &&
      (r.failure.None? && IsScalarType(leaf) ==>
        forall j :: 0 <= j < |rows| ==>
          |rows[j]| > 0 && Convertible(cv, leaf, rows[j][0].value) &&
          r.entries[2 + j] == ItemOf(cv, leaf, rows[j][0].value))
  {
    if name !in defs then Log([], Some(UnknownElement(name)))
    else
      var def := defs[name];
      if def.kind == Set then
        if def.leaf == Tuple then
          var t := ReadTupleSet(cv, def.columns, name, rows);
          TupleSetCounts(cv, def.columns, name, rows);
          if t.failure.None? then
            TupleSetProtocol(cv, def.columns, name, rows);
            t
          else t
        else
          ScalarSetCounts(cv, def.leaf, name, rows);
          ReadSet(cv, def.leaf, name, rows)
      else Log([], None)
  }

  /** The elements of `queries` that the definitions declare as SETs, in
      order: the ones a read makes the handler build. */
  function SetElements(defs: map<string, ElementDef>, queries: seq<ReadQuery>): seq<string> {
    if |queries| == 0 then []
    else
      var q := queries[0];
      (if q.element in defs && defs[q.element].kind == Set then [q.element] else [])
      + SetElements(defs, queries[1..])
  }

  /** One configured read: run the query, then read its rows into the
      element it names. */
  function ReadEntry(defs: map<string, ElementDef>, cv: Converter, q: ReadQuery,
                     execute: string -> Option<seq<Row>>): (r: Trace)
    ensures execute(q.query).None? ==> r == Log([], Some(QueryFailed(q.query)))
    ensures execute(q.query).Some? ==> r == ReadSetOrTuple(defs, cv, q.element, execute(q.query).value)
  {
    match execute(q.query)
    case None => Log([], Some(QueryFailed(q.query)))
    case Some(rows) => ReadSetOrTuple(defs, cv, q.element, rows)
  }

  /** `CustomRead`: the configured queries, one after the other, each run
      through `execute` and its rows read into the element it names. The
      first failure ends the whole read. */
  function CustomRead(defs: map<string, ElementDef>, cv: Converter, queries: seq<ReadQuery>,
                      execute: string -> Option<seq<Row>>): (r: Trace)
    ensures r.failure.None? ==> forall i :: 0 <= i < |queries| ==>
      queries[i].element in defs && execute(queries[i].query).Some?
    decreases |queries|
  {
    if |queries| == 0 then Log([], None)
    else
      var t := ReadEntry(defs, cv, queries[0], execute);
      var rest := CustomRead(defs, cv, queries[1..], execute);
      assert forall i :: 1 <= i < |queries| ==> queries[1..][i - 1] == queries[i];
      Then(t, rest)
  }

  /** The schema that `names` and `types` describe together: the columns
      `ReadTupleSet` reads with. */
  function Schema(names: seq<string>, types: seq<OplType>): (columns: seq<Column>)
    requires |names| == |types|
    ensures |columns| == |names|
  {
    seq(|names|, i requires 0 <= i < |names| => Column(names[i], types[i]))
  }

  /** `FillNamesAndTypes`: entry i of `names` and `types` comes from schema
      column i and definition component i. */
  method FillNamesAndTypes(columns: seq<Column>) returns (names: seq<string>, types: seq<OplType>)
    ensures |names| == |columns| && |types| == |columns|
    ensures forall i :: 0 <= i < |columns| ==> names[i] == columns[i].name && types[i] == columns[i].kind
    ensures Schema(names, types) == columns
  {
    names := [];
    types := [];
    var i := 0;
    while i < |columns|
      invariant 0 <= i <= |columns|
      invariant |names| == i && |types| == i
      invariant forall k :: 0 <= k < i ==> names[k] == columns[k].name && types[k] == columns[k].kind
    {
      names := names + [columns[i].name];
      types := types + [columns[i].kind];
      i := i + 1;
    }
  }

  /* ---------------------------------------------------------------------- */
  /* How one tuple and the first row contribute to a tuple-set read. The
     `...Shape` lemmas here and below are unfolding hints for the solver:
     each states one function's definition, so that a proof can bring
     exactly that unfolding into scope. */

  lemma ReadTupleShape(cv: Converter, columns: seq<Column>, row: Row)
    ensures var f := ReadFields(cv, columns, row);
            ReadTuple(cv, columns, row) ==
              if f.failure.Some? then Log([StartTuple] + f.entries, f.failure)
              else Log([StartTuple] + f.entries + [EndTuple], None)
  {
  }

  lemma ReadRowsShape(cv: Converter, columns: seq<Column>, rows: seq<Row>)
    requires |rows| > 0
    ensures var t := ReadTuple(cv, columns, rows[0]);
            var rest := ReadRows(cv, columns, rows[1..]);
            ReadRows(cv, columns, rows) ==
              if t.failure.Some? then t else Log(t.entries + rest.entries, rest.failure)
  {
  }

  /* ---------------------------------------------------------------------- */
  /* Protocol: every read drives the handler through the nesting the engine
     expects; a failed tuple-set read stops inside an open tuple. */

  /** One tuple: from inside the set, a successful row closes its tuple
      and counts one member; a failed one stays inside the tuple. */
  lemma TupleProtocol(cv: Converter, columns: seq<Column>, row: Row, k: nat)
    ensures var t := ReadTuple(cv, columns, row);
            var run := Run(ScalarCount(columns), InSet(k), t.entries);
            (t.failure.None? ==> run == Some(InSet(k + 1))) &&
            (t.failure.Some? ==> run.Some? && run.value.InTuple?)
  {
    ReadTupleShape(cv, columns, row);
    RunTupleBlock(ScalarCount(columns), k, ReadFields(cv, columns, row).entries);
  }

  lemma {:induction false} ReadRowsComplete(cv: Converter, columns: seq<Column>, rows: seq<Row>, k: nat)
    requires ReadRows(cv, columns, rows).failure.None?
    ensures Run(ScalarCount(columns), InSet(k), ReadRows(cv, columns, rows).entries) == Some(InSet(k + |rows|))
    decreases |rows|
  {
    if |rows| > 0 {
      var t := ReadTuple(cv, columns, rows[0]);
      var rest := ReadRows(cv, columns, rows[1..]);
      var a := ScalarCount(columns);
      assert t.failure.None? && rest.failure.None? &&
             ReadRows(cv, columns, rows).entries == t.entries + rest.entries by {
        ReadRowsShape(cv, columns, rows);
      }
      assert Run(a, InSet(k), t.entries) == Some(InSet(k + 1)) by {
        TupleProtocol(cv, columns, rows[0], k);
      }
      ReadRowsComplete(cv, columns, rows[1..], k + 1);
      RunAppend(a, InSet(k), t.entries, rest.entries);
    } else {
      assert ReadRows(cv, columns, rows).entries == [];
    }
  }

  lemma {:induction false} ReadRowsAborted(cv: Converter, columns: seq<Column>, rows: seq<Row>, k: nat)
    requires ReadRows(cv, columns, rows).failure.Some?
    ensures var run := Run(ScalarCount(columns), InSet(k), ReadRows(cv, columns, rows).entries);
            run.Some? && run.value.InTuple?
    decreases |rows|
  {
    var t := ReadTuple(cv, columns, rows[0]);
    ReadRowsShape(cv, columns, rows);
    TupleProtocol(cv, columns, rows[0], k);
    if t.failure.None? {
      var rest := ReadRows(cv, columns, rows[1..]);
      ReadRowsAborted(cv, columns, rows[1..], k + 1);
      RunAppend(ScalarCount(columns), InSet(k), t.entries, rest.entries);
    }
  }

  lemma ReadTupleSetShape(cv: Converter, columns: seq<Column>, name: string, rows: seq<Row>)
    ensures var body := ReadRows(cv, columns, rows);
            var head := [StartElement(name), StartSet];
            ReadTupleSet(cv, columns, name, rows) ==
              if body.failure.Some? then Log(head + body.entries, body.failure)
              else Log(head + body.entries + [EndSet], None)
  {
  }

  /** A successful tuple-set read is its rows' body between the element
      opening and EndSet. */
  lemma TupleSetSucceeded(cv: Converter, columns: seq<Column>, name: string, rows: seq<Row>)
    requires ReadTupleSet(cv, columns, name, rows).failure.None?
    ensures ReadRows(cv, columns, rows).failure.None?
    ensures ReadTupleSet(cv, columns, name, rows).entries ==
            [StartElement(name), StartSet] + ReadRows(cv, columns, rows).entries + [EndSet]
  {
    ReadTupleSetShape(cv, columns, name, rows);
  }

  /** A failed tuple-set read is the opening followed by its rows' body. */
  lemma TupleSetFailed(cv: Converter, columns: seq<Column>, name: string, rows: seq<Row>)
    requires ReadTupleSet(cv, columns, name, rows).failure.Some?
    ensures ReadRows(cv, columns, rows).failure.Some?
    ensures ReadTupleSet(cv, columns, name, rows).entries ==
            [StartElement(name), StartSet] + ReadRows(cv, columns, rows).entries
  {
    ReadTupleSetShape(cv, columns, name, rows);
  }

  lemma TupleSetBodyComplete(cv: Converter, columns: seq<Column>, name: string, rows: seq<Row>)
    requires ReadTupleSet(cv, columns, name, rows).failure.None?
    ensures Run(ScalarCount(columns), InSet(0), ReadRows(cv, columns, rows).entries) == Some(InSet(|rows|))
  {
    TupleSetSucceeded(cv, columns, name, rows);
    ReadRowsComplete(cv, columns, rows, 0);
  }

  lemma TupleSetBodyAborted(cv: Converter, columns: seq<Column>, name: string, rows: seq<Row>)
    requires ReadTupleSet(cv, columns, name, rows).failure.Some?
    ensures var run := Run(ScalarCount(columns), InSet(0), ReadRows(cv, columns, rows).entries);
            run.Some? && run.value.InTuple?
  {
    TupleSetFailed(cv, columns, name, rows);
    ReadRowsAborted(cv, columns, rows, 0);
  }

  /** A successful tuple-set read is one complete element with one member
      per row, each tuple holding one item per INTEGER, FLOAT or STRING
      column. */
  lemma TupleSetProtocol(cv: Converter, columns: seq<Column>, name: string, rows: seq<Row>)
    requires ReadTupleSet(cv, columns, name, rows).failure.None?
    ensures Run(ScalarCount(columns), Idle, ReadTupleSet(cv, columns, name, rows).entries) ==
            Some(Closed(|rows|))
  {
    TupleSetSucceeded(cv, columns, name, rows);
    TupleSetBodyComplete(cv, columns, name, rows);
    RunElementComplete(ScalarCount(columns), name, ReadRows(cv, columns, rows).entries, |rows|);
  }

  /** A failed tuple-set read leaves a tuple open: the source issues no
      EndTuple or EndSet for the StartTuple it already sent. */
  lemma TupleSetAbortsInsideTuple(cv: Converter, columns: seq<Column>, name: string, rows: seq<Row>)
    requires ReadTupleSet(cv, columns, name, rows).failure.Some?
    ensures var run := Run(ScalarCount(columns), Idle, ReadTupleSet(cv, columns, name, rows).entries);
            run.Some? && run.value.InTuple?
  {
    TupleSetFailed(cv, columns, name, rows);
    TupleSetBodyAborted(cv, columns, name, rows);
    RunElementBlock(ScalarCount(columns), name, ReadRows(cv, columns, rows).entries);
  }

  lemma ReadSetShape(cv: Converter, kind: OplType, name: string, rows: seq<Row>)
    ensures var body := ReadScalars(cv, kind, rows);
            var head := [StartElement(name), StartSet];
            ReadSet(cv, kind, name, rows) ==
              if body.failure.Some? then Log(head + body.entries, body.failure)
              else Log(head + body.entries + [EndSet], None)
  {
  }

  /** A successful scalar-set read is one complete element with one member
      per row (none at all for an unsupported leaf type); a failed one
      leaves the set open. */
  lemma ScalarSetProtocol(cv: Converter, kind: OplType, name: string, rows: seq<Row>, arity: nat)
    ensures var r := ReadSet(cv, kind, name, rows);
            var run := Run(arity, Idle, r.entries);
            (r.failure.None? ==> run == Some(Closed(if IsScalarType(kind) then |rows| else 0))) &&
            (r.failure.Some? ==> run.Some? && run.value.InSet?)
  {
    var body := ReadScalars(cv, kind, rows);
    ReadSetShape(cv, kind, name, rows);
    RunItemsInSet(arity, 0, body.entries);
    RunElementBlock(arity, name, body.entries);
  }

  /* ---------------------------------------------------------------------- */
  /* Balance of StartTuple and EndTuple calls, and the elements started. */

  /** A tuple is opened once and closed only when all its fields were read. */
  lemma TupleCounts(cv: Converter, columns: seq<Column>, row: Row)
    ensures var t := ReadTuple(cv, columns, row);
            CountStartTuple(t.entries) == 1 &&
            CountEndTuple(t.entries) == (if t.failure.None? then 1 else 0) &&
            ElementNames(t.entries) == []
  {
    var f := ReadFields(cv, columns, row);
    ReadTupleShape(cv, columns, row);
    CountsOfItems(f.entries);
    CountsAppend([StartTuple], f.entries);
    if f.failure.None? {
      CountsAppend([StartTuple] + f.entries, [EndTuple]);
    }
  }

  lemma {:induction false} RowsCounts(cv: Converter, columns: seq<Column>, rows: seq<Row>)
    ensures var r := ReadRows(cv, columns, rows);
            ElementNames(r.entries) == [] &&
            (r.failure.None? ==> CountStartTuple(r.entries) == |rows| == CountEndTuple(r.entries)) &&
            (r.failure.Some? ==> CountStartTuple(r.entries) == CountEndTuple(r.entries) + 1)
    decreases |rows|
  {
    if |rows| > 0 {
      var t := ReadTuple(cv, columns, rows[0]);
      ReadRowsShape(cv, columns, rows);
      TupleCounts(cv, columns, rows[0]);
      if t.failure.None? {
        var rest := ReadRows(cv, columns, rows[1..]);
        RowsCounts(cv, columns, rows[1..]);
        CountsAppend(t.entries, rest.entries);
      }
    } else {
      assert ReadRows(cv, columns, rows).entries == [];
    }
  }

  /** A tuple-set read starts exactly its own element. When it succeeds it
      opens and closes one tuple per row; when it fails exactly one tuple is
      left open. */
  lemma TupleSetCounts(cv: Converter, columns: seq<Column>, name: string, rows: seq<Row>)
    ensures var r := ReadTupleSet(cv, columns, name, rows);
            ElementNames(r.entries) == [name] &&
            (r.failure.None? ==> CountStartTuple(r.entries) == |rows| == CountEndTuple(r.entries)) &&
            (r.failure.Some? ==> CountStartTuple(r.entries) == CountEndTuple(r.entries) + 1)
  {
    var head := [StartElement(name), StartSet];
    var body := ReadRows(cv, columns, rows);
    ReadTupleSetShape(cv, columns, name, rows);
    RowsCounts(cv, columns, rows);
    HeadCounts(name);
    CountsAppend(head, body.entries);
    if body.failure.None? {
      CountsAppend(head + body.entries, [EndSet]);
    }
  }

  /** A scalar-set read starts exactly its own element and never opens a
      tuple. */
  lemma ScalarSetCounts(cv: Converter, kind: OplType, name: string, rows: seq<Row>)
    ensures var r := ReadSet(cv, kind, name, rows);
            ElementNames(r.entries) == [name] &&
            CountStartTuple(r.entries) == 0 && CountEndTuple(r.entries) == 0
  {
    var head := [StartElement(name), StartSet];
    var body := ReadScalars(cv, kind, rows);
    ReadSetShape(cv, kind, name, rows);
    CountsOfItems(body.entries);
    HeadCounts(name);
    CountsAppend(head, body.entries);
    if body.failure.None? {
      CountsAppend(head + body.entries, [EndSet]);
    }
  }

  /** A SET element read starts that element; anything else starts none. */
  lemma ReadSetOrTupleNames(defs: map<string, ElementDef>, cv: Converter, name: string, rows: seq<Row>)
    ensures ElementNames(ReadSetOrTuple(defs, cv, name, rows).entries) ==
            if name in defs && defs[name].kind == Set then [name] else []
  {
    if name in defs && defs[name].kind == Set {
      if defs[name].leaf == Tuple {
        TupleSetCounts(cv, defs[name].columns, name, rows);
      } else {
        ScalarSetCounts(cv, defs[name].leaf, name, rows);
      }
    }
  }

  /** A successful read pass starts exactly the SET elements of its
      queries, each once, in query order. */
  lemma {:induction false} CustomReadElementNames(defs: map<string, ElementDef>, cv: Converter,
                                                  queries: seq<ReadQuery>,
                                                  execute: string -> Option<seq<Row>>)
    requires CustomRead(defs, cv, queries, execute).failure.None?
    ensures ElementNames(CustomRead(defs, cv, queries, execute).entries) == SetElements(defs, queries)
    decreases |queries|
  {
    if |queries| > 0 {
      var q := queries[0];
      var t := ReadEntry(defs, cv, q, execute);
      var rest := CustomRead(defs, cv, queries[1..], execute);
      assert t.failure.None?;
      CustomReadElementNames(defs, cv, queries[1..], execute);
      ReadSetOrTupleNames(defs, cv, q.element, execute(q.query).value);
      CountsAppend(t.entries, rest.entries);
    }
  }

  /* ---------------------------------------------------------------------- */
  /* Field order and name-based lookup. */

  /** Every column of `columns` is present in the row and converts: the
      meaning of `RowReadable`, stated per column. */
  predicate FieldsReadable(cv: Converter, columns: seq<Column>, row: Row) {
    forall k :: 0 <= k < |columns| ==> FieldReadable(cv, columns[k], row)
  }

  /** Item k is the row's value under the name of column k converted to
      column k's type. */
  function NamedItems(cv: Converter, columns: seq<Column>, row: Row): (items: seq<Event>)
    requires AllScalar(columns) && FieldsReadable(cv, columns, row)
    ensures |items| == |columns|
  {
    seq(|columns|, k requires 0 <= k < |columns| =>
      ItemOf(cv, columns[k].kind, Lookup(row, columns[k].name).value))
  }

  /** A readable row is readable on its value-carrying columns alone. */
  lemma ScalarsReadable(cv: Converter, columns: seq<Column>, row: Row)
    requires RowReadable(cv, columns, row)
    ensures FieldsReadable(cv, Scalars(columns), row)
  {
    RowReadableMeans(cv, columns, row);
  }

  /** Reference definition of a tuple's items: the row's values under the
      names of the INTEGER, FLOAT and STRING columns, in schema order;
      columns of any other type contribute nothing. */
  function TupleItems(cv: Converter, columns: seq<Column>, row: Row): (items: seq<Event>)
    requires RowReadable(cv, columns, row)
    ensures |items| == ScalarCount(columns)
  {
    ScalarsReadable(cv, columns, row);
    NamedItems(cv, Scalars(columns), row)
  }

  /** Reference definition of the body of a tuple-set read: one block
      StartTuple, tuple items, EndTuple per row, in row order. */
  function Blocks(cv: Converter, columns: seq<Column>, rows: seq<Row>): seq<Event>
    requires AllRowsReadable(cv, columns, rows)
    decreases |rows|
  {
    if |rows| == 0 then []
    else [StartTuple] + TupleItems(cv, columns, rows[0]) + [EndTuple] + Blocks(cv, columns, rows[1..])
  }

  /** The named items of a non-empty all-scalar schema: the first column's
      item, then the rest. */
  lemma NamedItemsCons(cv: Converter, columns: seq<Column>, row: Row)
    requires |columns| > 0 && AllScalar(columns) && FieldsReadable(cv, columns, row)
    ensures AllScalar(columns[1..]) && FieldsReadable(cv, columns[1..], row)
    ensures NamedItems(cv, columns, row) ==
            [ItemOf(cv, columns[0].kind, Lookup(row, columns[0].name).value)] +
            NamedItems(cv, columns[1..], row)
  {
    var tail := columns[1..];
    assert forall k :: 0 <= k < |tail| ==> tail[k] == columns[k + 1];
    var a := NamedItems(cv, columns, row);
    var b := [ItemOf(cv, columns[0].kind, Lookup(row, columns[0].name).value)] + NamedItems(cv, tail, row);
    assert |a| == |b|;
  }

  /** A first column of INTEGER, FLOAT or STRING type gives the first item. */
  lemma TupleItemsConsScalar(cv: Converter, columns: seq<Column>, row: Row)
    requires |columns| > 0 && RowReadable(cv, columns, row) && IsScalarType(columns[0].kind)
    ensures RowReadable(cv, columns[1..], row) && FieldReadable(cv, columns[0], row)
    ensures TupleItems(cv, columns, row) ==
            [ItemOf(cv, columns[0].kind, Lookup(row, columns[0].name).value)] +
            TupleItems(cv, columns[1..], row)
  {
    var s := Scalars(columns);
    assert s == [columns[0]] + Scalars(columns[1..]);
    assert s[1..] == Scalars(columns[1..]);
    ScalarsReadable(cv, columns, row);
    NamedItemsCons(cv, s, row);
  }

  /** A first column of any other type gives no item. */
  lemma TupleItemsConsSkip(cv: Converter, columns: seq<Column>, row: Row)
    requires |columns| > 0 && RowReadable(cv, columns, row) && !IsScalarType(columns[0].kind)
    ensures RowReadable(cv, columns[1..], row)
    ensures TupleItems(cv, columns, row) == TupleItems(cv, columns[1..], row)
  {
    assert Scalars(columns) == Scalars(columns[1..]);
  }

  /** The first column contributes what `HandleColumnValue` makes of its
      value, and the rest of the schema the rest of the items. */
  lemma TupleItemsCons(cv: Converter, columns: seq<Column>, row: Row)
    requires |columns| > 0 && RowReadable(cv, columns, row)
    ensures RowReadable(cv, columns[1..], row) && Lookup(row, columns[0].name).Some?
    ensures TupleItems(cv, columns, row) ==
            HandleColumnValue(cv, columns[0].kind, Lookup(row, columns[0].name).value).entries +
            TupleItems(cv, columns[1..], row)
  {
    var c := columns[0];
    assert FieldReadable(cv, c, row);
    var h := HandleColumnValue(cv, c.kind, Lookup(row, c.name).value);
    if IsScalarType(c.kind) {
      TupleItemsConsScalar(cv, columns, row);
      assert h.entries == [ItemOf(cv, c.kind, Lookup(row, c.name).value)];
    } else {
      TupleItemsConsSkip(cv, columns, row);
      assert h.entries == [];
    }
  }

  /** For a readable row, the tuple's items are the row's values under the
      names of the schema's INTEGER, FLOAT and STRING columns, in schema
      order, each converted to its column's type; other columns are
      skipped. With only such columns, item k comes from column k. */
  lemma {:induction false} ReadFieldsAreNamedItems(cv: Converter, columns: seq<Column>, row: Row)
    requires RowReadable(cv, columns, row)
    ensures ReadFields(cv, columns, row).entries == TupleItems(cv, columns, row)
    decreases |columns|
  {
    if |columns| > 0 {
      TupleItemsCons(cv, columns, row);
      ReadFieldsAreNamedItems(cv, columns[1..], row);
    }
  }

  /** A column of a type with no item sits in the schema but sends
      nothing: with schema `t: TUPLE, a: INTEGER`, the tuple's one item is
      column `a`'s value. */
  lemma SkippedColumnExample(cv: Converter)
    requires cv.toInt(NativeInt(7)) == Some(7)
    ensures ReadFields(cv, [Column("t", Tuple), Column("a", Integer)],
                       [Cell("t", NativeNull), Cell("a", NativeInt(7))]) ==
            Log([AddIntItem(7)], None)
  {
  }

  lemma {:induction false} ReadRowsAreBlocks(cv: Converter, columns: seq<Column>, rows: seq<Row>)
    requires AllRowsReadable(cv, columns, rows)
    ensures ReadRows(cv, columns, rows).entries == Blocks(cv, columns, rows)
    decreases |rows|
  {
    if |rows| > 0 {
      ReadTupleShape(cv, columns, rows[0]);
      ReadRowsShape(cv, columns, rows);
      ReadFieldsAreNamedItems(cv, columns, rows[0]);
      ReadRowsAreBlocks(cv, columns, rows[1..]);
    }
  }

  /** A successful tuple-set read is StartElement, StartSet, then per row in
      order StartTuple, the row's values under the names of the schema's
      INTEGER, FLOAT and STRING columns in schema order, EndTuple, and
      finally EndSet: the query's own column order plays no part. */
  lemma TupleItemsInSchemaOrder(cv: Converter, columns: seq<Column>, name: string, rows: seq<Row>)
    requires AllRowsReadable(cv, columns, rows)
    ensures ReadTupleSet(cv, columns, name, rows).entries ==
            [StartElement(name), StartSet] + Blocks(cv, columns, rows) + [EndSet]
  {
    ReadRowsAreBlocks(cv, columns, rows);
  }

  /** No two columns of the row share a name. */
  predicate UniqueNames(row: Row) {
    forall i, j :: 0 <= i < j < |row| ==> row[i].name != row[j].name
  }

  /** `r2` holds the same named columns as `r1`, in another projection order. */
  predicate Reordered(r1: Row, r2: Row) {
    multiset(r1) == multiset(r2) && UniqueNames(r1) && UniqueNames(r2)
  }

  /** With unique names, looking a name up finds exactly the cell of that name. */
  lemma LookupUnique(row: Row, name: string, v: Native)
    requires UniqueNames(row)
    ensures Lookup(row, name) == Some(v) <==> Cell(name, v) in row
  {
  }


  lemma LookupReordered(r1: Row, r2: Row, name: string)
    requires Reordered(r1, r2)
    ensures Lookup(r1, name) == Lookup(r2, name)
  {
    if Lookup(r1, name).Some? {
      var v := Lookup(r1, name).value;
      LookupUnique(r1, name, v);
      assert Cell(name, v) in multiset(r1);
      LookupUnique(r2, name, v);
    } else if Lookup(r2, name).Some? {
      var v := Lookup(r2, name).value;
      LookupUnique(r2, name, v);
      assert Cell(name, v) in multiset(r2);
      LookupUnique(r1, name, v);
    }
  }

  lemma {:induction false} ReadFieldsReordered(cv: Converter, columns: seq<Column>, r1: Row, r2: Row)
    requires Reordered(r1, r2)
    ensures ReadFields(cv, columns, r1) == ReadFields(cv, columns, r2)
    decreases |columns|
  {
    if |columns| > 0 {
      LookupReordered(r1, r2, columns[0].name);
      ReadFieldsReordered(cv, columns[1..], r1, r2);
    }
  }

  lemma {:induction false} ReadRowsReordered(cv: Converter, columns: seq<Column>, rows1: seq<Row>, rows2: seq<Row>)
    requires |rows1| == |rows2|
    requires forall j :: 0 <= j < |rows1| ==> Reordered(rows1[j], rows2[j])
    ensures ReadRows(cv, columns, rows1) == ReadRows(cv, columns, rows2)
    decreases |rows1|
  {
    if |rows1| > 0 {
      ReadFieldsReordered(cv, columns, rows1[0], rows2[0]);
      ReadRowsReordered(cv, columns, rows1[1..], rows2[1..]);
    }
  }

  /** A tuple-set read matches columns by name: projecting the query's
      columns in another order yields the same handler calls and outcome. */
  lemma ProjectionOrderIrrelevant(cv: Converter, columns: seq<Column>, name: string,
                                  rows1: seq<Row>, rows2: seq<Row>)
    requires |rows1| == |rows2|
    requires forall j :: 0 <= j < |rows1| ==> Reordered(rows1[j], rows2[j])
    ensures ReadTupleSet(cv, columns, name, rows1) == ReadTupleSet(cv, columns, name, rows2)
  {
    ReadRowsReordered(cv, columns, rows1, rows2);
  }

  /* ---------------------------------------------------------------------- */
  /* The read pass handles its entries strictly one after the other. */

  /** A pass over one configured read: the query runs before any handler
      call; its failure ends the pass with no handler call, and otherwise
      the pass is the read of its rows into the named element. */
  lemma CustomReadSingle(defs: map<string, ElementDef>, cv: Converter, q: ReadQuery,
                         execute: string -> Option<seq<Row>>)
    ensures var r := CustomRead(defs, cv, [q], execute);
            (execute(q.query).None? ==> r == Log([], Some(QueryFailed(q.query)))) &&
            (execute(q.query).Some? ==>
              r == ReadSetOrTuple(defs, cv, q.element, execute(q.query).value))
  {
  }

  /** Reading `q1 + q2` is reading `q1`, then, if that succeeded, `q2`. */
  lemma {:induction false} CustomReadAppend(defs: map<string, ElementDef>, cv: Converter,
                                            q1: seq<ReadQuery>, q2: seq<ReadQuery>,
                                            execute: string -> Option<seq<Row>>)
    ensures CustomRead(defs, cv, q1 + q2, execute) ==
            Then(CustomRead(defs, cv, q1, execute), CustomRead(defs, cv, q2, execute))
    decreases |q1|
  {
    var b := CustomRead(defs, cv, q2, execute);
    if |q1| == 0 {
      assert q1 + q2 == q2;
    } else {
      var q := q1 + q2;
      assert q[0] == q1[0];
      assert q[1..] == q1[1..] + q2;
      var t := ReadEntry(defs, cv, q1[0], execute);
      CustomReadAppend(defs, cv, q1[1..], q2, execute);
      ThenAssociative(t, CustomRead(defs, cv, q1[1..], execute), b);
    }
  }
}

=== FILE: sql_writer.dfy ===
/** The write side of the bridge: after a solve, each configured result
    tuple set is written to its target table as DROP TABLE (a
    `DbException` from it ignored), CREATE TABLE with one typed column per schema column, and one
    parameterised INSERT per tuple.

    The database is seen only through the commands sent to it: every
    `ExecuteNonQuery` becomes one `Command` in the issued log, and whether
    the call throws a `DbException` is decided by the oracle `fails`. */
module SqlWriter {
  import opened Wrappers
  import opened OplTypes
  import opened Strings
  import opened Logs

  /** A parameter value as handed to the driver; `DbNull` is the C# null
      bound for a component whose type the writer does not marshal. */
  datatype DbValue = DbInt(i: int) | DbNum(x: real) | DbText(s: string) | DbNull

  datatype Parameter = Parameter(name: string, value: DbValue)

  /** One `ExecuteNonQuery` call: its command text and bound parameters. */
  datatype Command = Command(text: string, parameters: seq<Parameter>)

  /** A model element as the writer sees it: a tuple set with its schema
      and its tuples in iteration order, or anything else. */
  datatype Element =
    | TupleSetElement(columns: seq<Column>, tuples: seq<seq<Value>>)
    | OtherElement

  /** The exceptions that end a write: the model has no element of that
      name (the null element is dereferenced), the element is not a tuple
      set (`AsTupleSet` throws), or a CREATE or INSERT throws. */
  datatype WriteError =
    | UnknownElement(name: string)
    | NotATupleSet(name: string)
    | DatabaseError(command: Command)

  /** The commands sent, in order, and the exception that ended the
      sequence, if any. A command that throws is still in the log. */
  type Issued = Log<Command, WriteError>

  /** One entry of the output mapping: element name to target table. */
  datatype WriteEntry = WriteEntry(element: string, table: string)

  /** Every tuple of a tuple set has the shape of its schema. */
  predicate WellFormed(e: Element) {
    e.TupleSetElement? ==> forall j :: 0 <= j < |e.tuples| ==> Conforms(e.columns, e.tuples[j])
  }

  predicate WellFormedModel(model: map<string, Element>) {
    forall name :: name in model ==> WellFormed(model[name])
  }

  /* ---------------------------------------------------------------------- */
  /* Command texts. */

  /** `String.Format(DROP_STATEMENT, table)` with DROP_STATEMENT
      "DROP TABLE [{0}]": the table name goes between brackets verbatim. */
  function DropStatement(table: string): (r: string)
    ensures |r| == |table| + 13
    ensures r[..12] == "DROP TABLE [" && r[|r| - 1] == ']'
    ensures r[12..|r| - 1] == table
  {
    "DROP TABLE [" + table + "]"
  }

  /** Reads the table name back out of a DROP statement. */
  function DroppedTable(text: string): Option<string> {
    if |text| >= 13 && text[..12] == "DROP TABLE [" && text[|text| - 1] == ']'
    then Some(text[12..|text| - 1])
    else None
  }

  /** Distinct tables get distinct DROP statements: the text names its table. */
  lemma DropStatementNamesTable(table: string)
    ensures DroppedTable(DropStatement(table)) == Some(table)
  {
  }

  /** The SQL column type for INTEGER, FLOAT and STRING components; no type
      (the C# null) for any other component type. */
  function SqlType(kind: OplType): (r: Option<string>)
    ensures r.Some? <==> IsScalarType(kind)
  {
    match kind
    case Integer => Some("INT")
    case Float => Some("FLOAT")
    case String => Some("VARCHAR(30)")
    case _ => None
  }

  /** The component type a SQL column type stands for. */
  function OplTypeOfSql(sql: string): OplType {
    if sql == "INT" then Integer
    else if sql == "FLOAT" then Float
    else if sql == "VARCHAR(30)" then String
    else Other
  }

  /** The three SQL types are distinct, so the column type determines the
      component type. */
  lemma SqlTypeRoundTrip(kind: OplType)
    requires IsScalarType(kind)
    ensures OplTypeOfSql(SqlType(kind).value) == kind
  {
  }

  /** Entry i of `TableDefinitionFromOplTupleSchema`: the column name and,
      with `includeType`, a space and the SQL type. Concatenating the C#
      null type yields the name followed by a lone space. */
  function ColumnDefinition(c: Column, includeType: bool): (r: string)
    ensures |r| >= |c.name| && r[..|c.name|] == c.name
    ensures !includeType ==> r == c.name
    ensures includeType && !IsScalarType(c.kind) ==> r == c.name + " "
    ensures includeType && IsScalarType(c.kind) ==> r == c.name + " " + SqlType(c.kind).value
  {
    if includeType then c.name + " " + SqlType(c.kind).GetOr("") else c.name
  }

  /** Splits a typed column definition at its first space into the column
      name and its type. */
  function ParseColumnDefinition(field: string): Option<Column>
    decreases |field|
  {
    if |field| == 0 then None
    else if field[0] == ' ' then Some(Column("", OplTypeOfSql(field[1..])))
    else
      match ParseColumnDefinition(field[1..])
      case None => None
      case Some(c) => Some(Column([field[0]] + c.name, c.kind))
  }

  lemma {:induction false} ParseNameThenType(name: string, rest: string)
    requires ' ' !in name
    ensures ParseColumnDefinition(name + " " + rest) == Some(Column(name, OplTypeOfSql(rest)))
    decreases |name|
  {
    var field := name + " " + rest;
    if |name| == 0 {
      assert field[1..] == rest;
    } else {
      assert field[1..] == name[1..] + " " + rest;
      ParseNameThenType(name[1..], rest);
      assert [name[0]] + name[1..] == name;
    }
  }

  /** A typed column definition determines its column: name and component
      type read back, for names without spaces and marshalled types. */
  lemma ColumnDefinitionRoundTrip(c: Column)
    requires ' ' !in c.name && IsScalarType(c.kind)
    ensures ParseColumnDefinition(ColumnDefinition(c, true)) == Some(c)
  {
    ParseNameThenType(c.name, SqlType(c.kind).value);
    SqlTypeRoundTrip(c.kind);
  }

  /** `TableDefinitionFromOplTupleSchema`: one entry per schema column, in
      schema order. */
  method TableDefinition(columns: seq<Column>, includeType: bool) returns (fields: seq<string>)
    ensures |fields| == |columns|
    ensures forall i :: 0 <= i < |columns| ==>
      |fields[i]| >= |columns[i].name| && fields[i][..|columns[i].name|] == columns[i].name
    ensures !includeType ==> forall i :: 0 <= i < |columns| ==> fields[i] == columns[i].name
    ensures includeType ==> forall i :: 0 <= i < |columns| ==>
      fields[i] == columns[i].name + " " + SqlType(columns[i].kind).GetOr("")
    ensures fields == Definitions(columns, includeType)
  {
    fields := [];
    var i := 0;
    while i < |columns|
      invariant 0 <= i <= |columns|
      invariant |fields| == i
      invariant forall k :: 0 <= k < i ==> fields[k] == ColumnDefinition(columns[k], includeType)
    {
      var field := columns[i].name;
      if includeType {
        field := field + " " + SqlType(columns[i].kind).GetOr("");
      }
      fields := fields + [field];
      i := i + 1;
    }
  }

  /** The column definitions as one sequence, for use in expressions. */
  function Definitions(columns: seq<Column>, includeType: bool): (fields: seq<string>)
    ensures |fields| == |columns|
  {
    seq(|columns|, i requires 0 <= i < |columns| => ColumnDefinition(columns[i], includeType))
  }

  /** `CreateTable`'s statement text. */
  function CreateTableStatement(table: string, definitions: seq<string>): string {
    "CREATE TABLE " + table + "(" + Join(",", definitions) + ")"
  }

  /** The column list of a CREATE statement reads back, in order, when no
      definition holds a comma. */
  lemma CreateTableRoundTrip(table: string, definitions: seq<string>)
    requires |definitions| > 0
    requires forall k :: 0 <= k < |definitions| ==> ',' !in definitions[k]
    ensures var s := CreateTableStatement(table, definitions);
            var open := |table| + 14;
            |s| > open && s[..open] == "CREATE TABLE " + table + "(" && s[|s| - 1] == ')' &&
            Split(s[open..|s| - 1], ',') == definitions
  {
    var s := CreateTableStatement(table, definitions);
    var open := |table| + 14;
    assert s[open..|s| - 1] == Join([','], definitions);
    SplitJoin(definitions, ',');
  }

  /** The name of parameter i: `"@value" + i`. */
  function Placeholder(i: nat): (r: string)
    ensures |r| > 6 && r[..6] == "@value" && ',' !in r
  {
    var digits := NatToString(i);
    assert forall k :: 0 <= k < |digits| ==> digits[k] != ',';
    "@value" + digits
  }

  /** Reads the parameter index back out of a placeholder. */
  function PlaceholderIndex(p: string): Option<nat> {
    if |p| > 6 && p[..6] == "@value" && forall k :: 6 <= k < |p| ==> IsDigit(p[k])
    then Some(ParseNat(p[6..]))
    else None
  }

  lemma PlaceholderRoundTrip(i: nat)
    ensures PlaceholderIndex(Placeholder(i)) == Some(i)
  {
    var p := Placeholder(i);
    assert p[6..] == NatToString(i);
    ParseNatToString(i);
  }

  /** Distinct parameters get distinct names. */
  lemma PlaceholdersDistinct(i: nat, j: nat)
    requires i != j
    ensures Placeholder(i) != Placeholder(j)
  {
    PlaceholderRoundTrip(i);
    PlaceholderRoundTrip(j);
  }

  function Placeholders(n: nat): (r: seq<string>)
    ensures |r| == n
    ensures forall i :: 0 <= i < n ==> r[i] == Placeholder(i)
  {
    seq(n, i requires 0 <= i < n => Placeholder(i))
  }

  /** The INSERT text for a column list and a value list. */
  function InsertText(table: string, fields: seq<string>, values: seq<string>): string {
    "INSERT INTO " + table + "(" + Join(",", fields) + ") VALUES(" + Join(",", values) + ")"
  }

  /** `CreateInsertCommand`: the schema's column names in order, then one
      placeholder per column, `@value0` for the first. */
  method CreateInsertCommand(columns: seq<Column>, table: string) returns (text: string)
    ensures text == InsertText(table, Definitions(columns, false), Placeholders(|columns|))
  {
    var values: seq<string> := [];
    var i := 0;
    while i < |columns|
      invariant 0 <= i <= |columns|
      invariant values == Placeholders(i)
    {
      values := values + ["@value" + NatToString(i)];
      i := i + 1;
    }
    var fields := TableDefinition(columns, false);
    assert fields == Definitions(columns, false);
    text := "INSERT INTO " + table + "(" + Join(",", fields) + ") VALUES(" + Join(",", values) + ")";
  }

  /** The parts of an INSERT text: the column list splits back into the
      column names and the value list into the placeholders, so the name of
      column i is paired with `@value` i. */
  lemma InsertColumnsMatchPlaceholders(columns: seq<Column>, table: string)
    requires |columns| > 0
    requires forall k :: 0 <= k < |columns| ==> ',' !in columns[k].name
    ensures var names := Join(",", Definitions(columns, false));
            var values := Join(",", Placeholders(|columns|));
            InsertText(table, Definitions(columns, false), Placeholders(|columns|)) ==
              "INSERT INTO " + table + "(" + names + ") VALUES(" + values + ")" &&
            Split(names, ',') == Definitions(columns, false) &&
            Split(values, ',') == Placeholders(|columns|) &&
            forall i :: 0 <= i < |columns| ==>
              Split(names, ',')[i] == columns[i].name && PlaceholderIndex(Split(values, ',')[i]) == Some(i)
  {
    var defs := Definitions(columns, false);
    var ph := Placeholders(|columns|);
    SplitJoin(defs, ',');
    SplitJoin(ph, ',');
    forall i | 0 <= i < |columns|
      ensures PlaceholderIndex(ph[i]) == Some(i)
    {
      PlaceholderRoundTrip(i);
    }
  }

  /* ---------------------------------------------------------------------- */
  /* Parameters. */

  /** The value `InsertIntoTable` binds for one component: read with the
      getter of the component's type, or null for other types. */
  function DbValueOf(kind: OplType, v: Value): (r: DbValue)
    requires Matches(kind, v)
    ensures r.DbNull? <==> !IsScalarType(kind)
  {
    match kind
    case Integer => DbInt(v.i)
    case Float => DbNum(v.x)
    case String => DbText(v.s)
    case _ => DbNull
  }

  /** The component value a bound parameter carries, if any. */
  function ValueOfDb(d: DbValue): Option<Value> {
    match d
    case DbInt(i) => Some(IntValue(i))
    case DbNum(x) => Some(NumValue(x))
    case DbText(s) => Some(StrValue(s))
    case DbNull => None
  }

  /** A marshalled component reaches the database unchanged. */
  lemma DbValueRoundTrip(kind: OplType, v: Value)
    requires Matches(kind, v) && IsScalarType(kind)
    ensures ValueOfDb(DbValueOf(kind, v)) == Some(v)
  {
  }

  /** The parameters of one INSERT: `@value` i bound to component i. */
  method InsertParameters(columns: seq<Column>, tuple: seq<Value>) returns (params: seq<Parameter>)
    requires Conforms(columns, tuple)
    ensures |params| == |columns|
    ensures forall i :: 0 <= i < |columns| ==>
      params[i].name == Placeholder(i) && params[i].value == DbValueOf(columns[i].kind, tuple[i])
    ensures params == Bindings(columns, tuple)
  {
    params := [];
    var i := 0;
    while i < |columns|
      invariant 0 <= i <= |columns|
      invariant |params| == i
      invariant forall k :: 0 <= k < i ==>
        params[k].name == Placeholder(k) && params[k].value == DbValueOf(columns[k].kind, tuple[k])
    {
      var value := DbNull;
      if columns[i].kind == Integer {
        value := DbInt(tuple[i].i);
      } else if columns[i].kind == Float {
        value := DbNum(tuple[i].x);
      } else if columns[i].kind == String {
        value := DbText(tuple[i].s);
      }
      params := params + [Parameter("@value" + NatToString(i), value)];
      i := i + 1;
    }
  }

  /** The parameters as one sequence, for use in expressions. */
  function Bindings(columns: seq<Column>, tuple: seq<Value>): (params: seq<Parameter>)
    requires Conforms(columns, tuple)
    ensures |params| == |columns|
  {
    seq(|columns|, i requires 0 <= i < |columns| =>
      Parameter(Placeholder(i), DbValueOf(columns[i].kind, tuple[i])))
  }

  /** Every marshalled component of the tuple can be read back from the
      parameter bound under its placeholder. */
  lemma BindingsCarryTuple(columns: seq<Column>, tuple: seq<Value>, i: nat)
    requires Conforms(columns, tuple) && i < |columns| && IsScalarType(columns[i].kind)
    ensures Bindings(columns, tuple)[i].name == Placeholder(i)
    ensures ValueOfDb(Bindings(columns, tuple)[i].value) == Some(tuple[i])
  {
    DbValueRoundTrip(columns[i].kind, tuple[i]);
  }

  /* ---------------------------------------------------------------------- */
  /* The command sequence. */

  /** One `ExecuteNonQuery`: the command is sent; it either completes or
      throws. */
  function Execute(c: Command, fails: Command -> bool): (r: Issued)
    ensures r.entries == [c]
    ensures r.failure.Some? <==> fails(c)
    ensures r.failure.Some? ==> r.failure.value == DatabaseError(c)
  {
    if fails(c) then Log([c], Some(DatabaseError(c))) else Log([c], None)
  }

  function DropCommand(table: string): Command {
    Command(DropStatement(table), [])
  }

  /** `DropTable`: the DROP is sent and a `DbException` from it is
      swallowed, so it never ends the write. */
  function DropTable(table: string, fails: Command -> bool): (r: Issued)
    ensures r.entries == [DropCommand(table)] && r.failure.None?
  {
    var attempt := Execute(DropCommand(table), fails);
    Log(attempt.entries, None)
  }

  function CreateCommand(table: string, columns: seq<Column>): Command {
    Command(CreateTableStatement(table, Definitions(columns, true)), [])
  }

  /** The INSERT text `CreateInsertCommand` builds for a schema. */
  function InsertTextFor(table: string, columns: seq<Column>): string {
    InsertText(table, Definitions(columns, false), Placeholders(|columns|))
  }

  /** The INSERT for one tuple: the shared text, the tuple's bindings. */
  function InsertCommand(text: string, columns: seq<Column>, tuple: seq<Value>): Command
    requires Conforms(columns, tuple)
  {
    Command(text, Bindings(columns, tuple))
  }

  /** The INSERT loop of `WriteTable`: one command per tuple, in order,
      until one throws. */
  function InsertAll(text: string, columns: seq<Column>, tuples: seq<seq<Value>>,
                     fails: Command -> bool): (r: Issued)
    requires forall j :: 0 <= j < |tuples| ==> Conforms(columns, tuples[j])
    ensures r.failure.None? <==>
      forall j :: 0 <= j < |tuples| ==> !fails(InsertCommand(text, columns, tuples[j]))
    ensures |r.entries| <= |tuples|
    ensures forall j :: 0 <= j < |r.entries| ==> r.entries[j] == InsertCommand(text, columns, tuples[j])
    ensures r.failure.None? ==> |r.entries| == |tuples|
    decreases |tuples|
  {
    if |tuples| == 0 then Log([], None)
    else
      var first := Execute(InsertCommand(text, columns, tuples[0]), fails);
      if first.failure.Some? then first
      else
        var rest := InsertAll(text, columns, tuples[1..], fails);
        assert forall j :: 1 <= j < |tuples| ==> tuples[1..][j - 1] == tuples[j];
        Log(first.entries + rest.entries, rest.failure)
  }

  /** A failed INSERT loop ends on the INSERT that threw, every earlier one
      having completed. */
  lemma {:induction false} InsertAllStopsAtFailure(text: string, columns: seq<Column>, tuples: seq<seq<Value>>,
                                                   fails: Command -> bool)
    requires forall j :: 0 <= j < |tuples| ==> Conforms(columns, tuples[j])
    requires InsertAll(text, columns, tuples, fails).failure.Some?
    ensures var r := InsertAll(text, columns, tuples, fails);
            |r.entries| > 0 && r.failure.value == DatabaseError(r.entries[|r.entries| - 1]) &&
            fails(r.entries[|r.entries| - 1]) &&
            forall j :: 0 <= j < |r.entries| - 1 ==> !fails(r.entries[j])
    decreases |tuples|
  {
    var first := Execute(InsertCommand(text, columns, tuples[0]), fails);
    if first.failure.None? {
      var rest := InsertAll(text, columns, tuples[1..], fails);
      assert forall j :: 1 <= j < |tuples| ==> tuples[1..][j - 1] == tuples[j];
      InsertAllStopsAtFailure(text, columns, tuples[1..], fails);
      assert InsertAll(text, columns, tuples, fails).entries == first.entries + rest.entries;
    }
  }

  /** `WriteTable`: look the element up, drop the target table ignoring
      errors, create it from the typed schema (a throwing CREATE ends the
      write), then insert every tuple with the one INSERT text built
      before the loop. */
  function WriteTable(model: map<string, Element>, name: string, table: string,
                      fails: Command -> bool): (r: Issued)
    requires WellFormedModel(model)
    ensures name !in model ==> r == Log([], Some(UnknownElement(name)))
    ensures name in model && model[name].OtherElement? ==> r == Log([], Some(NotATupleSet(name)))
    ensures name in model && model[name].TupleSetElement? ==>
      |r.entries| >= 2 && r.entries[0] == DropCommand(table) &&
      r.entries[1] == CreateCommand(table, model[name].columns)
  {
    if name !in model then Log([], Some(UnknownElement(name)))
    else
      match model[name]
      case OtherElement => Log([], Some(NotATupleSet(name)))
      case TupleSetElement(columns, tuples) =>
        assert WellFormed(model[name]);
        var drop := DropTable(table, fails);
        var create := Execute(CreateCommand(table, columns), fails);
        if create.failure.Some? then Log(drop.entries + create.entries, create.failure)
        else
          var inserts := InsertAll(InsertTextFor(table, columns), columns, tuples, fails);
          Log(drop.entries + create.entries + inserts.entries, inserts.failure)
  }

  /** A tuple-set write succeeds exactly when the CREATE and every INSERT
      do; then it has sent the DROP, the CREATE and one INSERT per tuple in
      iteration order, tuple j bound to the INSERT's placeholders. */
  lemma WriteTableSucceeds(model: map<string, Element>, name: string, table: string, fails: Command -> bool)
    requires WellFormedModel(model) && name in model && model[name].TupleSetElement?
    ensures var e := model[name];
            var r := WriteTable(model, name, table, fails);
            var text := InsertTextFor(table, e.columns);
            (r.failure.None? <==>
              !fails(CreateCommand(table, e.columns)) &&
              forall j :: 0 <= j < |e.tuples| ==> !fails(InsertCommand(text, e.columns, e.tuples[j]))) &&
            (r.failure.None? ==>
              |r.entries| == 2 + |e.tuples| &&
              forall j :: 0 <= j < |e.tuples| ==> r.entries[2 + j] == InsertCommand(text, e.columns, e.tuples[j]))
  {
    var e := model[name];
    assert WellFormed(e);
    var r := WriteTable(model, name, table, fails);
    var text := InsertTextFor(table, e.columns);
    if !fails(CreateCommand(table, e.columns)) {
      var inserts := InsertAll(text, e.columns, e.tuples, fails);
      assert r.entries == [DropCommand(table), CreateCommand(table, e.columns)] + inserts.entries;
    }
  }

  /** A throwing CREATE ends the write before any INSERT. */
  lemma CreateFailureStopsWrite(model: map<string, Element>, name: string, table: string, fails: Command -> bool)
    requires WellFormedModel(model) && name in model && model[name].TupleSetElement?
    requires fails(CreateCommand(table, model[name].columns))
    ensures var create := CreateCommand(table, model[name].columns);
            WriteTable(model, name, table, fails) ==
              Log([DropCommand(table), create], Some(DatabaseError(create)))
  {
  }

  /** The DROP's outcome plays no part: two databases that differ only in
      whether the DROP throws see the same write. */
  lemma DropFailureIgnored(model: map<string, Element>, name: string, table: string,
                           fails1: Command -> bool, fails2: Command -> bool)
    requires WellFormedModel(model)
    requires forall c :: c != DropCommand(table) ==> fails1(c) == fails2(c)
    ensures WriteTable(model, name, table, fails1) == WriteTable(model, name, table, fails2)
  {
    if name in model && model[name].TupleSetElement? {
      var e := model[name];
      assert WellFormed(e);
      var create := CreateCommand(table, e.columns);
      assert create.text[0] == 'C' && DropCommand(table).text[0] == 'D';
      InsertAllSameOracle(table, InsertTextFor(table, e.columns), e.columns, e.tuples, fails1, fails2);
    }
  }

  lemma {:induction false} InsertAllSameOracle(table: string, text: string, columns: seq<Column>,
                                               tuples: seq<seq<Value>>,
                                               fails1: Command -> bool, fails2: Command -> bool)
    requires text == InsertTextFor(table, columns)
    requires forall j :: 0 <= j < |tuples| ==> Conforms(columns, tuples[j])
    requires forall c :: c != DropCommand(table) ==> fails1(c) == fails2(c)
    ensures InsertAll(text, columns, tuples, fails1) == InsertAll(text, columns, tuples, fails2)
    decreases |tuples|
  {
    if |tuples| > 0 {
      var c := InsertCommand(text, columns, tuples[0]);
      assert c.text[0] == 'I' && DropCommand(table).text[0] == 'D';
      assert forall j :: 1 <= j < |tuples| ==> tuples[1..][j - 1] == tuples[j];
      InsertAllSameOracle(table, text, columns, tuples[1..], fails1, fails2);
    }
  }

  /** `WriteResults`: every configured entry in turn; the first exception
      ends the pass. */
  function WriteResults(model: map<string, Element>, entries: seq<WriteEntry>,
                        fails: Command -> bool): (r: Issued)
    requires WellFormedModel(model)
    ensures r.failure.None? ==> forall i :: 0 <= i < |entries| ==>
      entries[i].element in model && model[entries[i].element].TupleSetElement?
    decreases |entries|
  {
    if |entries| == 0 then Log([], None)
    else
      var first := WriteTable(model, entries[0].element, entries[0].table, fails);
      var rest := WriteResults(model, entries[1..], fails);
      assert forall i :: 1 <= i < |entries| ==> entries[1..][i - 1] == entries[i];
      Then(first, rest)
  }

  /** Writing `e1 + e2` is writing `e1`, then, if that succeeded, `e2`. */
  lemma {:induction false} WriteResultsAppend(model: map<string, Element>, e1: seq<WriteEntry>,
                                              e2: seq<WriteEntry>, fails: Command -> bool)
    requires WellFormedModel(model)
    ensures WriteResults(model, e1 + e2, fails) ==
            Then(WriteResults(model, e1, fails), WriteResults(model, e2, fails))
    decreases |e1|
  {
    if |e1| == 0 {
      assert e1 + e2 == e2;
    } else {
      var e := e1 + e2;
      assert e[0] == e1[0];
      assert e[1..] == e1[1..] + e2;
      WriteResultsAppend(model, e1[1..], e2, fails);
      ThenAssociative(WriteTable(model, e1[0].element, e1[0].table, fails),
                      WriteResults(model, e1[1..], fails), WriteResults(model, e2, fails));
    }
  }

  /** The commands a successful write of entry `e` sends, read off the
      model alone: its DROP, its CREATE, then one INSERT per tuple in tuple
      order, all INSERTs sharing one text. */
  function TableCommands(model: map<string, Element>, e: WriteEntry): seq<Command>
    requires WellFormedModel(model) && e.element in model && model[e.element].TupleSetElement?
  {
    var el := model[e.element];
    assert WellFormed(el);
    var text := InsertTextFor(e.table, el.columns);
    [DropCommand(e.table), CreateCommand(e.table, el.columns)] +
    seq(|el.tuples|, j requires 0 <= j < |el.tuples| => InsertCommand(text, el.columns, el.tuples[j]))
  }

  /** The commands of every entry, entry after entry. */
  function AllCommands(model: map<string, Element>, entries: seq<WriteEntry>): seq<Command>
    requires WellFormedModel(model)
    requires forall i :: 0 <= i < |entries| ==>
      entries[i].element in model && model[entries[i].element].TupleSetElement?
    decreases |entries|
  {
    if |entries| == 0 then []
    else
      assert forall i :: 1 <= i < |entries| ==> entries[1..][i - 1] == entries[i];
      TableCommands(model, entries[0]) + AllCommands(model, entries[1..])
  }

  /** A successful table write sends exactly its entry's commands. */
  lemma WriteTableCommands(model: map<string, Element>, e: WriteEntry, fails: Command -> bool)
    requires WellFormedModel(model) && e.element in model && model[e.element].TupleSetElement?
    requires WriteTable(model, e.element, e.table, fails).failure.None?
    ensures WriteTable(model, e.element, e.table, fails).entries == TableCommands(model, e)
  {
  }

  /** A successful write pass sends, for every entry in entry order, the
      DROP of its table, the CREATE, and one INSERT per tuple: nothing
      else, and nothing that depends on the database. */
  lemma {:induction false} WriteResultsComplete(model: map<string, Element>, entries: seq<WriteEntry>,
                                                fails: Command -> bool)
    requires WellFormedModel(model)
    requires WriteResults(model, entries, fails).failure.None?
    ensures WriteResults(model, entries, fails).entries == AllCommands(model, entries)
    decreases |entries|
  {
    if |entries| > 0 {
      WriteTableCommands(model, entries[0], fails);
      assert forall i :: 1 <= i < |entries| ==> entries[1..][i - 1] == entries[i];
      WriteResultsComplete(model, entries[1..], fails);
    }
  }
}

=== FILE: strings.dfy ===
/** The string operations of the .NET base library that the SQL text builders
    use: `String.Join`, and the decimal rendering of a non-negative `int` that
    `"@value" + i` performs. Each comes with the inverse that shows no
    information is lost: `Split` for `Join`, `ParseNat` for `NatToString`. */
module Strings {

  /** `String.Join(sep, xs)`: the entries of `xs` with `sep` between each
      consecutive pair; the empty string for an empty list. */
  function Join(sep: string, xs: seq<string>): (r: string)
    ensures |xs| == 0 ==> r == ""
    ensures |xs| == 1 ==> r == xs[0]
    ensures |xs| > 0 ==> |r| >= |xs[0]| && r[..|xs[0]|] == xs[0]
  {
    if |xs| == 0 then ""
    else if |xs| == 1 then xs[0]
    else xs[0] + sep + Join(sep, xs[1..])
  }

  /** Cuts `s` at every occurrence of `c`; the pieces never contain `c`. */
  function Split(s: string, c: char): (r: seq<string>)
    ensures |r| >= 1
    ensures forall k :: 0 <= k < |r| ==> c !in r[k]
    decreases |s|
  {
    if |s| == 0 then [""]
    else if s[0] == c then [""] + Split(s[1..], c)
    else
      var rest := Split(s[1..], c);
      [[s[0]] + rest[0]] + rest[1..]
  }

  /** A string without the separator is a single piece. */
  lemma {:induction false} SplitWithoutSeparator(a: string, c: char)
    requires c !in a
    ensures Split(a, c) == [a]
    decreases |a|
  {
    if |a| > 0 {
      SplitWithoutSeparator(a[1..], c);
      assert [a[0]] + a[1..] == a;
    }
  }

  /** The first separator closes the first piece. */
  lemma {:induction false} SplitAtSeparator(a: string, c: char, b: string)
    requires c !in a
    ensures Split(a + [c] + b, c) == [a] + Split(b, c)
    decreases |a|
  {
    var s := a + [c] + b;
    if |a| == 0 {
      assert s[1..] == b;
    } else {
      assert s[1..] == a[1..] + [c] + b;
      SplitAtSeparator(a[1..], c, b);
      assert [a[0]] + a[1..] == a;
    }
  }

  /** `Split` undoes `Join` when no entry contains the separator and the
      list is not empty (an empty list and a list holding one empty string
      both join to ""). */
  lemma {:induction false} SplitJoin(xs: seq<string>, c: char)
    requires |xs| > 0
    requires forall k :: 0 <= k < |xs| ==> c !in xs[k]
    ensures Split(Join([c], xs), c) == xs
    decreases |xs|
  {
    if |xs| == 1 {
      SplitWithoutSeparator(xs[0], c);
    } else {
      SplitJoin(xs[1..], c);
      SplitAtSeparator(xs[0], c, Join([c], xs[1..]));
      assert [xs[0]] + xs[1..] == xs;
    }
  }

  predicate IsDigit(ch: char) {
    '0' <= ch <= '9'
  }

  function Digit(d: nat): (ch: char)
    requires d < 10
    ensures IsDigit(ch)
  {
    ('0' as int + d) as char
  }

  function DigitValue(ch: char): (d: nat)
    requires IsDigit(ch)
    ensures d < 10
  {
    ch as int - '0' as int
  }

  /** The decimal rendering of `n` (no sign, no leading zeros), as
      `Int32.ToString()` produces for a non-negative value. */
  function NatToString(n: nat): (r: string)
    ensures |r| >= 1
    ensures forall k :: 0 <= k < |r| ==> IsDigit(r[k])
    ensures |r| > 1 ==> r[0] != '0'
  {
    if n < 10 then [Digit(n)] else NatToString(n / 10) + [Digit(n % 10)]
  }

  /** Reads a string of decimal digits back as a number. */
  function ParseNat(s: string): nat
    requires forall k :: 0 <= k < |s| ==> IsDigit(s[k])
  {
    if |s| == 0 then 0 else ParseNat(s[..|s| - 1]) * 10 + DigitValue(s[|s| - 1])
  }

  lemma {:induction false} ParseNatToString(n: nat)
    ensures ParseNat(NatToString(n)) == n
  {
    var s := NatToString(n);
    if n >= 10 {
      ParseNatToString(n / 10);
      assert s[..|s| - 1] == NatToString(n / 10);
    }
  }

  /** Distinct numbers render as distinct strings. */
  lemma NatToStringInjective(i: nat, j: nat)
    requires i != j
    ensures NatToString(i) != NatToString(j)
  {
    ParseNatToString(i);
    ParseNatToString(j);
  }
}

=== FILE: wrappers.dfy ===
/** The optional-value datatype used wherever the C# code works with a value
    that may be null or an operation that may throw. */
module Wrappers {

  /** `None` stands for a C# null reference or for a call that throws. */
  datatype Option<+T> = None | Some(value: T) {

    /** Returns the value in `Some`, or `default` for `None`. */
    function GetOr(default: T): T {
      match this
      case Some(v) => v
      case None => default
    }
  }
}
